=== FILE: README.md ===
# CourseCupid core, modelled in Dafny

CourseCupid is a "dating app" for university papers. A student matches with papers and then chats with each
paper through a language model, or chats with the general "Cupid" adviser. This project models the parts
of the repository that hold precise rules:

- **The paper-chat handler** (`POST /api/chat/:paperId` in `server.js`), over an in-memory copy of the
  `Chat_Session` and `Chat_Message` tables. It finds or creates the caller's session, stores the user
  turn and builds the bounded context window. It asks the language model for a reply, stores the reply
  and answers. `transcript.dfy` holds the table rows and the queries as functions. `paper_chat.dfy`
  holds two things:
  - `Handle`, the handler as a function of the tables before the request;
  - the class `ChatStore`, whose method `PostChat` performs the same steps one write at a time and is
    proved to end in `Handle`'s result.

  Timestamps come from a strictly increasing counter and identifiers from a fresh-id counter. The
  language model is a function parameter that may fail. User ids are compared with SQL `=`, so NULL
  equals nothing: an anonymous caller never finds an earlier session and gets a new session on every
  message (`SessionFindOrCreate`).
- **The chat page** (`frontend/js/chat.js`), in `chat_client.dfy`:
  - `getPaperIdFromPath`, over an exact model of `split('/').filter(Boolean)`;
  - the paper-code test `/^[A-Z]{4}\d{3}$/i`;
  - `escHtml`, with an inverse that shows nothing is lost;
  - which side a loaded message is drawn on;
  - the rename `save` decision and the form submit;
  - the page's three state variables, as the class `ChatView`, whose methods are the navigation handlers.
- **The paper import script** (`db/importPapers.js`), in `paper_import.dfy`: a loop over the records that
  skips incomplete ones, inserts the rest if their code is absent, and collects the ones it inserted. A
  failing INSERT stops the loop.
- **The first-year filter** (`webscrappers/first_year_filter.py`), in `first_year.dfy`: strip the lines,
  drop the blank ones, keep the codes whose fifth character is `1`.
- **The page routing of `frontend/app.js`**, in `app_routing.dfy`: `getCurrentSessionID`, modelled as the
  leftmost match of `/\/chat\/(.+)/`; the `/chat/<id>` links and redirect, with a round trip; and the
  outcome of `deleteSession`.

`seqs.dfy` (reverse, filter, subsequence), `text.dfy` (trimming, parametrised by a whitespace set) and
`wrappers.dfy` (`Option`) are shared helpers.

## Model

| member | source | states |
|---|---|---|
| Transcript.LatestMatch | server.js:153-158 | the row found matches (user, paper) under SQL `=` and no later row matches; none is found exactly when no row matches, and never for a NULL user |
| Transcript.LatestMatchIsNewest | server.js:153-158 | in a table kept in creation order, the row found has the greatest `created_at` among the matching rows |
| Transcript.TouchChangesOnlyTarget | server.js:177-180 | the UPDATE sets `updated_at` of the row with that id and changes nothing else |
| Transcript.Touch | server.js:177-180 | the UPDATE keeps every row; with `TouchChangesOnlyTarget` only the target row's `updated_at` changes |
| Transcript.SessionRowsMembership | server.js:201-208 | `WHERE session_id = $1` selects exactly the table's rows that carry that id |
| Transcript.SessionRows | server.js:201-205 | selecting one session's rows never adds rows; `SessionRowsMembership` states which rows are selected |
| Transcript.HistoryQuery | server.js:201-208 | the newest-first history of one session, at most 8 rows; `HistoryQueryNewestFirst` states its length, order and what it leaves out |
| Transcript.HistoryQueryNewestFirst | server.js:201-208 | the history holds min(8, n) rows of the session in strictly decreasing `created_at`; every session row left out is older than all returned |
| Transcript.FilterKeepsOrder | server.js:201-208 | selecting one session's rows keeps creation order |
| Transcript.RecentRows | server.js:201-208 | the session's most recent rows, oldest first, are at most 8 |
| Transcript.TurnsAt | server.js:214-217 | each turn carries exactly the role and content of its row |
| Transcript.Kept | server.js:212 | a row reaches the model iff its content is truthy and its role is `user` or `assistant` |
| Transcript.Turns | server.js:214-217 | one turn per row; `TurnsAt` states that turn i carries row i's role and content |
| Transcript.Prompt | server.js:193-196 | the system prompt is fixed text around the paper's title, code and description; no property depends on its wording |
| Transcript.ContextWindow | server.js:211-223 | the prompt, then the filtered, reversed and mapped history; `ContextWindowShape` and `ContextIsChronologicalTail` state its shape and order |
| Transcript.ContextWindowShape | server.js:211-223 | the context is the system prompt, then at most 8 turns, each with role user or assistant and non-empty content |
| Transcript.ContextIsChronologicalTail | server.js:201-223 | the context is the system prompt, then the kept rows among the session's 8 newest rows, in table order; `ContextRowsAscending` shows that order is ascending `created_at` |
| Transcript.ContextRowsAscending | server.js:201-213 | in a creation-ordered message table, the rows the context replays have strictly ascending `created_at` |
| Transcript.NewestUserTurnIsLast | server.js:184-223 | a user row with content that was just appended to a session is the last turn of that session's context |
| Transcript.SessionRowsAppend | server.js:184-190 | an inserted message is appended to its own session's rows |
| Transcript.SessionRowsAppendOther | server.js:184-190 | an inserted message leaves every other session's rows unchanged |
| PaperChat.CallerId | server.js:137 | a missing or empty session user id becomes NULL; any other user id is kept |
| PaperChat.TargetSession | server.js:153-176 | when a session matches (user, paper), the id of the newest match (the row `ORDER BY created_at DESC LIMIT 1` returns); in a store that keeps the invariant, a fresh id exactly when none matches |
| PaperChat.Opened | server.js:161-181 | find-or-create leaves the message table and the clock alone, and adds a session exactly when it takes a fresh id |
| PaperChat.WithMessage | server.js:184-190 | an INSERT into `Chat_Message` (the user row, and the assistant row at lines 242-247) appends exactly one row, keeps earlier rows and the sessions, and takes one fresh id |
| PaperChat.Admitted | server.js:153-190 | before the model is asked, the clock is read once, at most one session is added, and exactly one message row is appended after the earlier rows |
| PaperChat.RequestContext | server.js:193-223 | the context of the target session, read after the user insert; `ContextCarriesUserTurn` states its shape |
| PaperChat.Handle | server.js:134-260 | 404 exactly for an unknown paper; otherwise 500 with "Error: could not connect to AI." or 200; no row is ever removed and earlier messages are kept as they were |
| PaperChat.HandleAnswersWithModel | server.js:193-259 | for a known paper the model is asked with the prompt and the history read after the user insert. The answer is 500 "Error: could not connect to AI." exactly when that call fails, and the tables then stay as admitted. A completed call is answered 200 with the model's content. The session table is find-or-create's |
| PaperChat.UnknownPaperWritesNothing | server.js:143-150 | an unknown paper code is answered 404 "Error: Paper not found." and both tables are unchanged |
| PaperChat.SessionFindOrCreate | server.js:153-181 | with no match, exactly one session is appended: a fresh id, the caller, the paper, `created_at = updated_at = now`, not starred. With a match, only the newest match's `updated_at` changes. A NULL user never matches |
| PaperChat.NewSessionStartsEmpty | server.js:164-172 | a newly created session has no stored messages |
| PaperChat.WithMessageTranscripts | server.js:184-190 | storing a message appends it to its session's transcript and leaves every other transcript unchanged |
| PaperChat.ContextCarriesUserTurn | server.js:184-223 | the user row is stored before the history is read: the context starts with the prompt, holds at most 9 turns, and ends with the user's message when that is non-empty |
| PaperChat.TranscriptGrowth | server.js:184-259 | on 200 the session gains exactly the user row then an assistant row holding the returned reply. Otherwise the answer is 500 "Error: could not connect to AI." and the user row stays. Other sessions are untouched |
| PaperChat.OpenedKeepsInvariant | server.js:161-181 | find-or-create keeps both tables in creation order, session ids unique and all ids below the fresh-id counter |
| PaperChat.WithMessageKeepsInvariant | server.js:184-190 | storing a message of an existing session at the latest timestamp keeps the store invariant |
| PaperChat.AdmittedKeepsInvariant | server.js:153-190 | find-or-create followed by the user insert keeps the store invariant |
| PaperChat.HandleKeepsInvariant | server.js:134-260 | every request, answered 404, 500 or 200, keeps the store invariant |
| PaperChat.ChatStore.Now | server.js:162 | reading the clock returns the current time and advances it |
| PaperChat.ChatStore.FreshId | server.js:167 | `uuidv4()` (also at lines 184 and 242) returns the next unused identifier and advances the counter |
| PaperChat.ChatStore.OpenSession | server.js:153-181 | the tables after the step are the find-or-create result, and the session id returned is the target session |
| PaperChat.ChatStore.AddMessage | server.js:184-190 | the message table gains exactly the one row |
| PaperChat.ChatStore.Admit | server.js:153-190 | reading the clock, find-or-create and the user insert keep `Valid()`, leave the tables `Admitted` specifies, and return the target session |
| PaperChat.ChatStore.PostChat | server.js:134-260 | run step by step, the handler leaves the tables and the response `Handle` specifies, keeps the store invariant and does not change the paper table |
| ChatClient.Split | frontend/js/chat.js:30 | `split` yields at least one piece and no piece holds the separator |
| ChatClient.JoinSplit | frontend/js/chat.js:30 | joining the pieces gives back the string |
| ChatClient.SplitJoin | frontend/js/chat.js:30 | splitting a join of separator-free pieces gives back the pieces |
| ChatClient.Segments | frontend/js/chat.js:30 | every segment is non-empty and free of `/` |
| ChatClient.IsPaperCode | frontend/js/chat.js:34 | `/^[A-Z]{4}\d{3}$/i`: exactly seven characters, four ASCII letters of either case, then three ASCII digits |
| ChatClient.PaperIdFromPath | frontend/js/chat.js:29-39 | the id is present exactly when the first segment is `chat` and a second exists. It is then the decoded second segment, with the type paper iff it is 4 ASCII letters then 3 digits. Otherwise both id and type are null |
| ChatClient.ChatPathNamesSegment | frontend/js/chat.js:29-39 | on `/chat/<seg>` and `/chat/<seg>/...` the id is the decoded `<seg>` |
| ChatClient.Escape | frontend/js/chat.js:57-59 | the escaped text has no raw `<`, `>` or `"` and is never shorter |
| ChatClient.EscHtml | frontend/js/chat.js:56-60 | null or undefined escapes to ""; the output has no raw `<`, `>` or `"` |
| ChatClient.EscapeRoundTrip | frontend/js/chat.js:56-60 | decoding the four entities undoes the escaping: nothing is lost |
| ChatClient.EscapePlainText | frontend/js/chat.js:56-60 | text without `&`, `<`, `>` or `"` is unchanged |
| ChatClient.EscapeAppend | frontend/js/chat.js:56-60 | escaping works character by character: escaping a concatenation concatenates the escapes |
| ChatClient.DisplaySide | frontend/js/chat.js:284 | a message is drawn on the user's side iff `sender === 'user'` or `is_user` is truthy |
| ChatClient.SaveTitle | frontend/js/chat.js:417-425 | a title is sent iff the trimmed input is non-empty and differs from the old title, and what is sent is the trimmed input; otherwise the old title is restored |
| ChatClient.SavedTitleIsStable | frontend/js/chat.js:417-425 | a saved title has no surrounding white space, so saving it again sends nothing |
| ChatClient.ChatView.constructor | frontend/js/chat.js:20-22 | the page starts with no chat open |
| ChatClient.ChatView.OpenChat | frontend/js/chat.js:298-302 | opening a paper sets the paper, type paper and no session |
| ChatClient.ChatView.OpenCupidChat | frontend/js/chat.js:337-341 | opening a Cupid chat sets the session, type cupid and no paper |
| ChatClient.ChatView.Popstate | frontend/js/chat.js:487-519 | a path with no id resets all three variables. A paper id reopens that paper only when a reloaded card has exactly that code. A Cupid id opens the session the server returns. Otherwise nothing changes, and paper and session are never both set |
| ChatClient.ChatView.Init | frontend/js/chat.js:525-548 | a paper path opens that paper. A Cupid path with an id opens the session the server returns. Otherwise nothing changes |
| ChatClient.ChatView.SendTarget | frontend/js/chat.js:364-365 | a truthy current paper wins; otherwise the current session if truthy; there is no target iff neither is truthy |
| ChatClient.ChatView.SendRequest | frontend/js/chat.js:363-378 | a request is posted iff there is a target, and it carries the target and the text |
| ChatClient.ChatView.SubmitRequest | frontend/js/chat.js:476-481 | a request is sent iff the trimmed input is non-empty and a chat is open; it carries the send target and the trimmed input |
| ChatClient.SendFollowsMode | frontend/js/chat.js:363-365 | in a paper chat the message goes to the paper, in a Cupid chat to the session, and with no chat nowhere |
| ChatClient.RenameOnlyInCupidChat | frontend/js/chat.js:397-399 | renaming is allowed only when no paper is open, and the session being renamed is the one messages go to |
| ChatClient.ChatView.CanRename | frontend/js/chat.js:399 | the title editor opens iff the type is cupid and the session id is truthy |
| PaperImport.StopIndex | db/importPapers.js:39-46 | the loop stops at the complete record whose INSERT throws, when there is one, and otherwise runs to the end |
| PaperImport.Complete | db/importPapers.js:20-23 | a record is processed iff `paper_code`, `title`, `subject` and `description` are all truthy |
| PaperImport.NewRow | db/importPapers.js:26-31 | the row inserted holds the record's title and description, 18 points and active; `subject` is not stored |
| PaperImport.Step | db/importPapers.js:17-37 | one iteration never modifies an existing row, and collects the record iff it is complete and its code was absent |
| PaperImport.Import | db/importPapers.js:16-37 | the loop over all records; `ImportProperties`, `ImportKeepsOrder` and `ImportAppend` state what it promises |
| PaperImport.StepKeepsInvariant | db/importPapers.js:16-37 | one iteration keeps the import invariant: existing rows unmodified; collected records complete, new, stored as their row and distinct in code; every new row collected |
| PaperImport.ImportProperties | db/importPapers.js:13-47 | after the loop, existing rows are unmodified. Each collected record was complete and absent before, and is stored with its code, title and description, 18 points and active. No two share a code. Every row added was collected |
| PaperImport.ImportKeepsOrder | db/importPapers.js:16-37 | `insertedPapers` is a subsequence of the records in iteration order |
| PaperImport.ImportAppend | db/importPapers.js:16-37 | importing a + b equals importing a and then b into the resulting table, with the collected lists concatenated |
| PaperImport.PaperTable.InsertIfAbsent | db/importPapers.js:26-32 | a row is returned iff the code was absent; then exactly that row is added, otherwise the table is unchanged |
| PaperImport.ImportPapers | db/importPapers.js:13-47 | the table and `insertedPapers` are the result of importing the records up to the failing one, or all of them |
| FirstYear.CleanLines | webscrappers/first_year_filter.py:5 | cleaning never adds lines |
| FirstYear.Strip | webscrappers/first_year_filter.py:5 | `str.strip()`: the `Text.Trim` of Python's white space set |
| FirstYear.CleanLinesTrimmed | webscrappers/first_year_filter.py:5 | every kept line is non-empty and stripped |
| FirstYear.CleanLinesMembership | webscrappers/first_year_filter.py:5 | the kept lines are exactly the non-empty stripped forms of the input lines |
| FirstYear.BlankLineDropped | webscrappers/first_year_filter.py:5 | a whitespace-only line contributes nothing |
| FirstYear.FirstYearPapers | webscrappers/first_year_filter.py:8 | the selection never adds codes |
| FirstYear.IsFirstYear | webscrappers/first_year_filter.py:8 | a code is first-year iff it has at least five characters and its fifth is `1` |
| FirstYear.FirstYearMembership | webscrappers/first_year_filter.py:8 | a code is kept iff it is in the input, has at least 5 characters and its fifth is `1` |
| FirstYear.FirstYearOrderAndDuplicates | webscrappers/first_year_filter.py:8 | the output is an order-preserving subsequence, and each first-year code keeps all its duplicates |
| FirstYear.FirstYearIdempotent | webscrappers/first_year_filter.py:8 | filtering the output again changes nothing |
| FirstYear.FilterFile | webscrappers/first_year_filter.py:4-13 | the lines written are the first-year codes among the cleaned lines; `FilterFileOutput` states what each is |
| FirstYear.FilterFileOutput | webscrappers/first_year_filter.py:4-13 | every line written is a stripped first-year code obtained by stripping some input line |
| Text.Trim | frontend/js/chat.js:478 | the trimmed text is no longer than the input and neither starts nor ends with white space |
| Text.TrimIsInfix | frontend/js/chat.js:418 | trimming keeps a contiguous infix whose surroundings are all white space |
| Text.TrimEmpty | frontend/js/chat.js:479 | the trimmed text is empty iff the input is all white space |
| Text.TrimIdempotent | frontend/js/chat.js:418 | trimming twice is trimming once |
| Seqs.FilterReverse | server.js:211-213 | filtering then reversing equals reversing then filtering |
| AppRouting.Run | frontend/app.js:73 | the greedy `(.+)` capture is the longest prefix without a line terminator |
| AppRouting.FindFrom | frontend/app.js:73 | the search finds the leftmost position where `/chat/` is followed by a matchable character, or reports that there is none |
| AppRouting.SessionIdFromPath | frontend/app.js:71-75 | the result is null iff no `/chat/` is followed by a character other than a line terminator; otherwise it is non-empty and has no line terminator |
| AppRouting.SessionIdIsFirstSuffix | frontend/app.js:73-74 | the id is the undecoded text after the first matching `/chat/`, stopping exactly at the first line terminator or at the end |
| AppRouting.ChatLink | frontend/app.js:94 | the link `/chat/<id>` (also the redirect at line 26); `LinkRoundTrip` reads `id` back from it |
| AppRouting.NewSessionRedirect | frontend/app.js:24-26 | the page redirects iff the returned `session_id` is truthy |
| AppRouting.LinkRoundTrip | frontend/app.js:94 | the string `/chat/<id>` the link assigns reads back as `id`, for every non-empty id without a line terminator |
| AppRouting.RedirectRoundTrip | frontend/app.js:24-26 | the string the redirect assigns to `window.location.href` reads back as the new session's id |
| AppRouting.ReadersAgree | frontend/app.js:71-75 | on `/chat/<id>` with no `/` in id, the chat page reads the decoded form of the id the app script reads |
| AppRouting.DeleteSession | frontend/app.js:38-64 | nothing is sent unless the user confirms. The DELETE goes to `/api/chat-sessions/<id>`, with `null` when there is no id. Success is reported iff `response.ok` and `data.success` both hold |

## Left out

- DOM and browser plumbing: cards, bubbles, scrolling, `history.pushState`, `alert`, `setTimeout` and every
  `fetch`. What a request returns enters the model as a parameter: the session fetched in `popstate`/`init`,
  the response of the DELETE, and the reloaded match codes.
- The Groq HTTP request and its JSON decoding: the model's answer is the `llm` parameter, which either
  completes with a reply or fails. The wording of the system prompt is kept as fixed text around the
  paper's title, code and description, and no property depends on it.
- PaperChat.Handle: a completion is either a failure or a reply string. A completion whose
  `message.content` is null or absent is not modelled, so neither is the NULL assistant row it would
  store or the `reply: null` answer it would send.
- PaperChat.ChatStore.PostChat: every INSERT and UPDATE succeeds. The only failure modelled after the user
  row is stored is the language-model call, which covers the 500 path. A database error before the user
  insert (which would also answer 500) is not modelled.
- Wall-clock time and UUID generation: timestamps come from a counter that strictly increases on every
  reading; identifiers come from a counter and are fresh. Two rows stamped in the same millisecond, which
  would make `ORDER BY created_at` ambiguous, are not modelled.
- Concurrent requests: the handler does no serialisation; the model handles one request at a time.
- `decodeURIComponent` and `encodeURIComponent` are uninterpreted: decoding is a function parameter and
  the URLs the page requests are not modelled. A malformed escape throwing `URIError` is not modelled.
- AppRouting.RedirectRoundTrip: the model treats the href the page assigns and the `pathname` read later
  as the same string. The browser's URL parsing is not modelled. It cuts the path at `?` or `#`,
  percent-encodes spaces and non-ASCII characters, and resolves `.` and `..` segments.
- AppRouting.LinkRoundTrip: the same gap. The round trip is about the link's string, not the `pathname`
  the browser derives from it.
- JavaScript strings are modelled as sequences of code points, not UTF-16 code units.
- ChatClient.EscHtml: only strings, null and undefined are modelled; `toString()` of other values is not.
- ChatClient.ChatView.OpenCupidChat takes the session id as a string. A session object without
  `session_id`, and the title shown (`session.title` or the id's first 8 characters), are not modelled.
- ChatClient.ChatView.Popstate: `matches` holds the upper-cased codes of the reloaded cards. So a paper
  path written in lower case never reopens a chat there, although `init` opens it.
- The reply shown after `sendMessage` (the `reply`/`ai`/`choices` fallback and the warning on a failed
  request) and the opening message of `openChat` are display-only and not modelled.
- The rename request itself, its failure path and the sidebar title update are not modelled; `SaveTitle`
  models only the decision.
- PaperImport.ImportPapers: the JSON object's keys are given as a sequence in iteration order. A record
  that is itself `null` (which would throw at the field test) is not modelled. The only failure modelled
  is an INSERT that throws; reading the input file and writing `imported_papers.json` are I/O.
- FirstYear: reading `paper_codes.txt` and writing `paper_codes_100.txt` are I/O. The model starts from
  the file's lines, and the output is the list of lines written.
- The `/api/chat-sessions` and `/api/my-matches` endpoints are served by code outside the files this model
  covers (`db/api-server.js` defines neither), so they are not part of this model.

=== FILE: app_routing.dfy ===
/** The page-level routing of frontend/app.js: reading the current chat identifier back from the
    URL path, the `/chat/<id>` links and redirects, and the outcome of deleting a chat. */
module AppRouting {
  import opened Wrappers
  import ChatClient

  /** The characters `.` in a JavaScript regular expression does not match. */
  predicate IsLineTerminator(c: char) {
    c == '\n' || c == '\r' || c == '\U{2028}' || c == '\U{2029}'
  }

  predicate NoLineTerminator(s: string) {
    forall k :: 0 <= k < |s| ==> !IsLineTerminator(s[k])
  }

  /** `/\/chat\/(.+)/` can match starting at position i: `/chat/` followed by a matchable character. */
  predicate MatchesAt(path: string, i: nat) {
    i + 7 <= |path| && path[i..i + 6] == "/chat/" && !IsLineTerminator(path[i + 6])
  }

  /** The greedy `(.+)` capture: the longest prefix without a line terminator. */
  function Run(s: string): (r: string)
    ensures |r| <= |s| && r == s[..|r|] && NoLineTerminator(r)
    ensures |r| < |s| ==> IsLineTerminator(s[|r|])
  {
    if s == [] || IsLineTerminator(s[0]) then [] else [s[0]] + Run(s[1..])
  }

  /** The leftmost position at or after i where a match starts. */
  function FindFrom(path: string, i: nat): (r: Option<nat>)
    decreases |path| - i
    ensures r.Some? ==> i <= r.value && MatchesAt(path, r.value)
    ensures r.Some? ==> forall j :: i <= j < r.value ==> !MatchesAt(path, j)
    ensures r.None? ==> forall j :: i <= j ==> !MatchesAt(path, j)
  {
    if i + 7 > |path| then None
    else if MatchesAt(path, i) then Some(i)
    else FindFrom(path, i + 1)
  }

  /** `getCurrentSessionID`: capture group 1 of the leftmost match, not decoded, or null. */
  function SessionIdFromPath(path: string): (r: Option<string>)
    ensures r.None? <==> forall j :: !MatchesAt(path, j)
    ensures r.Some? ==> r.value != [] && NoLineTerminator(r.value)
  {
    match FindFrom(path, 0)
    case None => None
    case Some(i) => Some(Run(path[i + 6..]))
  }

  /** The identifier is the text right after the first `/chat/` that has a character after it, up
      to the first line terminator. */
  lemma SessionIdIsFirstSuffix(path: string) returns (i: nat)
    requires SessionIdFromPath(path).Some?
    ensures MatchesAt(path, i) && forall j: nat :: j < i ==> !MatchesAt(path, j)
    ensures var id := SessionIdFromPath(path).value;
      id == path[i + 6..][..|id|] && (NoLineTerminator(path[i + 6..]) ==> id == path[i + 6..])
    ensures var id := SessionIdFromPath(path).value;
      |id| < |path[i + 6..]| ==> IsLineTerminator(path[i + 6..][|id|])
  {
    i := FindFrom(path, 0).value;
  }

  /** The links and redirects `/chat/<id>` (the new-session redirect and the mini match list). */
  function ChatLink(id: string): string {
    "/chat/" + id
  }

  /** The redirect after creating a session happens only when the returned `session_id` is truthy. */
  function NewSessionRedirect(sessionId: Option<string>): (r: Option<string>)
    ensures r.Some? <==> sessionId.Some? && sessionId.value != ""
  {
    if sessionId.Some? && sessionId.value != "" then Some(ChatLink(sessionId.value)) else None
  }

  /** Reading back a link gives the identifier it was built from, when that has no line terminator. */
  lemma LinkRoundTrip(id: string)
    requires id != [] && NoLineTerminator(id)
    ensures SessionIdFromPath(ChatLink(id)) == Some(id)
  {
    var path := ChatLink(id);
    assert path[0..6] == "/chat/" && path[6] == id[0] && path[6..] == id;
    assert MatchesAt(path, 0);
    RunWhole(id);
  }

  lemma {:induction false} RunWhole(s: string)
    requires NoLineTerminator(s)
    ensures Run(s) == s
  {
    if s != [] {
      RunWhole(s[1..]);
      assert s == [s[0]] + s[1..];
    }
  }

  /** The page a new session is redirected to names that session. */
  lemma RedirectRoundTrip(sessionId: Option<string>)
    requires sessionId.Some? && sessionId.value != "" && NoLineTerminator(sessionId.value)
    ensures SessionIdFromPath(NewSessionRedirect(sessionId).value) == sessionId
  {
    LinkRoundTrip(sessionId.value);
  }

  /** On a link `/chat/<id>` the chat page and the app script agree: the chat page's id is the
      decoded form of the one the app script reads. */
  lemma ReadersAgree(id: string, decode: string -> string)
    requires id != [] && NoLineTerminator(id) && '/' !in id
    ensures ChatClient.PaperIdFromPath(ChatLink(id), decode).id == Some(decode(SessionIdFromPath(ChatLink(id)).value))
  {
    LinkRoundTrip(id);
    ChatClient.ChatPathNamesSegment(id, [], decode);
    assert ChatLink(id) == "/chat/" + id + [];
  }

  /** What `deleteSession` ends in: nothing when the confirmation is declined, otherwise the
      DELETE request it sent and whether it reports success. */
  datatype DeleteOutcome = Cancelled | Sent(url: string, succeeded: bool)

  /** `deleteSession`: `identifier` is the `getCurrentSessionID` result (null prints as "null"),
      `responseOk` is `response.ok`, and `success` is the truthiness of `data.success`, None when
      the body is not JSON. */
  function DeleteSession(identifier: Option<string>, confirmed: bool, responseOk: bool, success: Option<bool>): (r: DeleteOutcome)
    ensures r.Cancelled? <==> !confirmed
    ensures r.Sent? ==> (r.succeeded <==> responseOk && success == Some(true))
    ensures r.Sent? ==> r.url == "/api/chat-sessions/" + identifier.GetOr("null")
  {
    if !confirmed then Cancelled
    else
      var url := "/api/chat-sessions/" + (if identifier.Some? then identifier.value else "null");
      Sent(url, responseOk && success == Some(true))
  }
}

=== FILE: chat_client.dfy ===
/** The chat page's client logic (frontend/js/chat.js): reading the chat identifier from the URL
    path, escaping message text for HTML, which side a stored message is drawn on, and the page's
    current-chat state as the navigation handlers change it. */
module ChatClient {
  import opened Wrappers
  import Seqs
  import Text

  /** `'paper'` or `'cupid'`. */
  datatype ChatType = PaperKind | CupidKind

  /** `{ id, type }` as read from the path; both are null when the path names no chat. */
  datatype PathId = PathId(id: Option<string>, kind: Option<ChatType>)

  /** `String.prototype.split` with a one-character separator: the pieces between separators,
      empty pieces included; there is always at least one piece. */
  function Split(s: string, sep: char): (r: seq<string>)
    ensures |r| >= 1
    ensures forall i :: 0 <= i < |r| ==> sep !in r[i]
  {
    if s == [] then [[]]
    else
      var rest := Split(s[1..], sep);
      if s[0] == sep then [[]] + rest else [[s[0]] + rest[0]] + rest[1..]
  }

  /** `Array.prototype.join` with a one-character separator. */
  function Join(parts: seq<string>, sep: char): string
    requires |parts| >= 1
  {
    if |parts| == 1 then parts[0] else parts[0] + [sep] + Join(parts[1..], sep)
  }

  /** Joining the pieces gives back the string that was split. */
  lemma {:induction false} JoinSplit(s: string, sep: char)
    ensures Join(Split(s, sep), sep) == s
  {
    if s != [] {
      var rest := Split(s[1..], sep);
      JoinSplit(s[1..], sep);
      if s[0] == sep {
        assert s == [sep] + s[1..];
      } else {
        if |rest| == 1 {
          assert s == [s[0]] + rest[0];
        } else {
          assert Join(rest, sep) == rest[0] + [sep] + Join(rest[1..], sep);
          assert s == [s[0]] + (rest[0] + [sep] + Join(rest[1..], sep));
        }
      }
    }
  }

  /** Splitting a join of separator-free pieces gives back the pieces. */
  lemma {:induction false} SplitJoin(parts: seq<string>, sep: char)
    requires |parts| >= 1 && forall i :: 0 <= i < |parts| ==> sep !in parts[i]
    ensures Split(Join(parts, sep), sep) == parts
  {
    if |parts| == 1 {
      SplitPiece(parts[0], sep);
    } else {
      SplitJoin(parts[1..], sep);
      SplitPrepend(parts[0], Join(parts[1..], sep), sep);
      assert parts == [parts[0]] + parts[1..];
    }
  }

  /** A separator-free string is one piece. */
  lemma {:induction false} SplitPiece(p: string, sep: char)
    requires sep !in p
    ensures Split(p, sep) == [p]
  {
    if p != [] {
      SplitPiece(p[1..], sep);
      assert p == [p[0]] + p[1..];
    }
  }

  /** Splitting `p + sep + t` for a separator-free p puts p in front of the pieces of t. */
  lemma {:induction false} SplitPrepend(p: string, t: string, sep: char)
    requires sep !in p
    ensures Split(p + [sep] + t, sep) == [p] + Split(t, sep)
  {
    if p == [] {
      assert p + [sep] + t == [sep] + t;
      assert ([sep] + t)[1..] == t;
    } else {
      assert (p + [sep] + t)[1..] == p[1..] + [sep] + t;
      SplitPrepend(p[1..], t, sep);
      assert [p[0]] + p[1..] == p;
    }
  }

  predicate NonEmpty(s: string) {
    s != []
  }

  /** `pathname.split('/').filter(Boolean)`. */
  function Segments(path: string): (r: seq<string>)
    ensures forall i :: 0 <= i < |r| ==> r[i] != [] && '/' !in r[i]
  {
    var pieces := Split(path, '/');
    var r := Seqs.Filter(pieces, NonEmpty);
    Seqs.FilterMembership(pieces, NonEmpty);
    assert forall i :: 0 <= i < |r| ==> r[i] in pieces;
    r
  }

  predicate IsAsciiLetter(c: char) {
    'A' <= c <= 'Z' || 'a' <= c <= 'z'
  }

  predicate IsAsciiDigit(c: char) {
    '0' <= c <= '9'
  }

  /** `/^[A-Z]{4}\d{3}$/i`: four ASCII letters of either case, then three ASCII digits. */
  predicate IsPaperCode(id: string) {
    |id| == 7 &&
    IsAsciiLetter(id[0]) && IsAsciiLetter(id[1]) && IsAsciiLetter(id[2]) && IsAsciiLetter(id[3]) &&
    IsAsciiDigit(id[4]) && IsAsciiDigit(id[5]) && IsAsciiDigit(id[6])
  }

  /** `getPaperIdFromPath`: when the first path segment is `chat` and a second one exists, the id is
      the decoded second segment, a paper code or else a Cupid session; otherwise both are null.
      `decode` stands for `decodeURIComponent`. */
  function PaperIdFromPath(path: string, decode: string -> string): (r: PathId)
    ensures r.id.Some? <==> |Segments(path)| >= 2 && Segments(path)[0] == "chat"
    ensures r.kind.Some? <==> r.id.Some?
    ensures r.id.Some? ==> r.id.value == decode(Segments(path)[1])
    ensures r.kind == Some(PaperKind) ==> IsPaperCode(r.id.value)
    ensures r.kind == Some(CupidKind) ==> !IsPaperCode(r.id.value)
  {
    var parts := Segments(path);
    if |parts| >= 2 && parts[0] == "chat" then
      var id := decode(parts[1]);
      PathId(Some(id), Some(if IsPaperCode(id) then PaperKind else CupidKind))
    else PathId(None, None)
  }

  /** The pieces of `/chat/<seg><tail>` when the tail is empty or starts a new segment. */
  lemma SplitChatPath(seg: string, tail: string) returns (more: seq<string>)
    requires '/' !in seg && (tail == [] || tail[0] == '/')
    ensures Split("/chat/" + seg + tail, '/') == ["", "chat", seg] + more
  {
    if tail == [] {
      SplitPiece(seg, '/');
      assert seg + tail == seg;
      more := [];
    } else {
      assert seg + tail == seg + ['/'] + tail[1..];
      SplitPrepend(seg, tail[1..], '/');
      more := Split(tail[1..], '/');
    }
    assert Split(seg + tail, '/') == [seg] + more;
    var path := "/chat/" + seg + tail;
    assert path == [] + ['/'] + ("chat" + ['/'] + (seg + tail));
    SplitPrepend([], "chat" + ['/'] + (seg + tail), '/');
    SplitPrepend("chat", seg + tail, '/');
  }

  /** Dropping empty pieces from `["", "chat", seg, ...]` leaves `chat` and seg in front. */
  lemma ChatSegmentsFirst(seg: string, more: seq<string>)
    requires seg != []
    ensures var f := Seqs.Filter(["", "chat", seg] + more, NonEmpty); |f| >= 2 && f[0] == "chat" && f[1] == seg
  {
    var parts := ["", "chat", seg] + more;
    var f := Seqs.Filter(parts, NonEmpty);
    assert parts[0] == "" && parts[1..][0] == "chat" && parts[1..][1..][0] == seg;
    assert f == Seqs.Filter(parts[1..], NonEmpty);
    assert f == ["chat"] + Seqs.Filter(parts[1..][1..], NonEmpty);
    assert f == ["chat"] + ([seg] + Seqs.Filter(parts[1..][1..][1..], NonEmpty));
  }

  /** The links `/chat/<seg>` and `/chat/<seg>/...` name the chat `decode(seg)`. */
  lemma ChatPathNamesSegment(seg: string, tail: string, decode: string -> string)
    requires seg != [] && '/' !in seg
    requires tail == [] || tail[0] == '/'
    ensures PaperIdFromPath("/chat/" + seg + tail, decode).id == Some(decode(seg))
  {
    var more := SplitChatPath(seg, tail);
    ChatSegmentsFirst(seg, more);
  }

  /** The entity for one character: `&`, `<`, `>` and `"` are replaced, every other character stays. */
  function EscapeChar(c: char): string {
    match c
    case '&' => "&amp;"
    case '<' => "&lt;"
    case '>' => "&gt;"
    case '"' => "&quot;"
    case _ => [c]
  }

  predicate IsHtmlSpecial(c: char) {
    c == '&' || c == '<' || c == '>' || c == '"'
  }

  /** `.replace(/[&<>"]/g, ...)`: character by character; no raw `<`, `>` or `"` is left. */
  function Escape(s: string): (r: string)
    ensures |r| >= |s|
    ensures forall i :: 0 <= i < |r| ==> r[i] != '<' && r[i] != '>' && r[i] != '"'
  {
    if s == [] then [] else EscapeChar(s[0]) + Escape(s[1..])
  }

  /** `escHtml`: a null or undefined argument escapes as the empty string. */
  function EscHtml(s: Option<string>): (r: string)
    ensures s.None? ==> r == ""
    ensures forall i :: 0 <= i < |r| ==> r[i] != '<' && r[i] != '>' && r[i] != '"'
  {
    Escape(s.GetOr(""))
  }

  /** Decodes the four entities Escape produces; every other character is kept. */
  function Unescape(s: string): string {
    if s == [] then []
    else if |s| >= 5 && s[..5] == "&amp;" then "&" + Unescape(s[5..])
    else if |s| >= 4 && s[..4] == "&lt;" then "<" + Unescape(s[4..])
    else if |s| >= 4 && s[..4] == "&gt;" then ">" + Unescape(s[4..])
    else if |s| >= 6 && s[..6] == "&quot;" then "\"" + Unescape(s[6..])
    else [s[0]] + Unescape(s[1..])
  }

  lemma UnescapeChar(c: char, t: string)
    ensures Unescape(EscapeChar(c) + t) == [c] + Unescape(t)
  {
    var e := EscapeChar(c) + t;
    if c == '&' {
      assert e[..5] == "&amp;" && e[5..] == t;
    } else if c == '<' {
      assert e[1] == 'l';
      assert |e| < 5 || e[..5] != "&amp;";
      assert e[..4] == "&lt;" && e[4..] == t;
    } else if c == '>' {
      assert e[1] == 'g';
      assert |e| < 5 || e[..5] != "&amp;";
      assert e[..4] != "&lt;";
      assert e[..4] == "&gt;" && e[4..] == t;
    } else if c == '"' {
      assert e[1] == 'q';
      assert e[..5] != "&amp;" && e[..4] != "&lt;" && e[..4] != "&gt;";
      assert e[..6] == "&quot;" && e[6..] == t;
    } else {
      assert e[0] == c && e[1..] == t;
      assert |e| < 5 || e[..5][0] != '&';
      assert |e| < 4 || e[..4][0] != '&';
      assert |e| < 6 || e[..6][0] != '&';
    }
  }

  /** Escaping loses nothing: unescaping gives back the original text. */
  lemma {:induction false} EscapeRoundTrip(s: string)
    ensures Unescape(Escape(s)) == s
  {
    if s != [] {
      EscapeRoundTrip(s[1..]);
      UnescapeChar(s[0], Escape(s[1..]));
      assert s == [s[0]] + s[1..];
    }
  }

  /** Text without `&`, `<`, `>` or `"` is left exactly as it is. */
  lemma {:induction false} EscapePlainText(s: string)
    requires forall i :: 0 <= i < |s| ==> !IsHtmlSpecial(s[i])
    ensures Escape(s) == s
  {
    if s != [] {
      EscapePlainText(s[1..]);
      assert s == [s[0]] + s[1..];
    }
  }

  /** Escaping works piece by piece. */
  lemma {:induction false} EscapeAppend(a: string, b: string)
    ensures Escape(a + b) == Escape(a) + Escape(b)
  {
    if a == [] {
      assert a + b == b;
    } else {
      assert (a + b)[0] == a[0] && (a + b)[1..] == a[1..] + b;
      EscapeAppend(a[1..], b);
    }
  }

  datatype Side = UserSide | AiSide

  /** A loaded message is drawn on the user's side when `sender === 'user'` or `is_user` is truthy. */
  function DisplaySide(sender: Option<string>, isUser: bool): (r: Side)
    ensures r == UserSide <==> sender == Some("user") || isUser
  {
    if sender == Some("user") || isUser then UserSide else AiSide
  }

  /** Characters `String.prototype.trim` removes: white space and line terminators. */
  predicate JsWhitespace(c: char) {
    c == '\t' || c == '\n' || c == '\U{B}' || c == '\U{C}' || c == '\r' || c == ' ' ||
    c == '\U{A0}' || c == '\U{1680}' || ('\U{2000}' <= c <= '\U{200A}') ||
    c == '\U{2028}' || c == '\U{2029}' || c == '\U{202F}' || c == '\U{205F}' ||
    c == '\U{3000}' || c == '\U{FEFF}'
  }

  /** What the rename `save` does: restore the old title, or send the trimmed new one. */
  datatype TitleSave = RestoreTitle(shown: string) | PutTitle(title: string)

  /** `save`: an empty or unchanged trimmed title restores the old one and sends nothing. */
  function SaveTitle(oldTitle: string, input: string): (r: TitleSave)
    ensures r.RestoreTitle? ==> r.shown == oldTitle
    ensures r.PutTitle? <==> Text.Trim(input, JsWhitespace) != [] && Text.Trim(input, JsWhitespace) != oldTitle
    ensures r.PutTitle? ==> r.title == Text.Trim(input, JsWhitespace)
  {
    var newTitle := Text.Trim(input, JsWhitespace);
    if newTitle == [] || newTitle == oldTitle then RestoreTitle(oldTitle) else PutTitle(newTitle)
  }

  /** A title that is sent has no surrounding white space, so saving it again changes nothing. */
  lemma SavedTitleIsStable(oldTitle: string, input: string)
    requires SaveTitle(oldTitle, input).PutTitle?
    ensures var t := SaveTitle(oldTitle, input).title; SaveTitle(t, t) == RestoreTitle(t)
  {
    Text.TrimIdempotent(input, JsWhitespace);
  }

  /** The body of `POST /api/chat/<target>`. */
  datatype ChatRequest = ChatRequest(target: string, message: string)

  /** The page's current chat. */
  class ChatView {
    var currentPaper: Option<string>
    var currentSessionId: Option<string>
    var currentChatType: Option<ChatType>

    /** No chat, a paper chat, or a Cupid chat: never a paper and a session at once. */
    ghost predicate Valid()
      reads this
    {
      || (currentPaper.None? && currentSessionId.None? && currentChatType.None?)
      || (currentPaper.Some? && currentSessionId.None? && currentChatType == Some(PaperKind))
      || (currentPaper.None? && currentSessionId.Some? && currentChatType == Some(CupidKind))
    }

    constructor ()
      ensures Valid()
      ensures currentPaper.None? && currentSessionId.None? && currentChatType.None?
    {
      currentPaper, currentSessionId, currentChatType := None, None, None;
    }

    /** `openChat`: switches to the paper's chat. */
    method OpenChat(paperCode: string)
      modifies this
      ensures Valid()
      ensures currentPaper == Some(paperCode) && currentChatType == Some(PaperKind) && currentSessionId.None?
    {
      currentPaper := Some(paperCode);
      currentChatType := Some(PaperKind);
      currentSessionId := None;
    }

    /** `openCupidChat`: switches to the Cupid session. */
    method OpenCupidChat(sessionId: string)
      modifies this
      ensures Valid()
      ensures currentSessionId == Some(sessionId) && currentPaper.None? && currentChatType == Some(CupidKind)
    {
      currentSessionId := Some(sessionId);
      currentPaper := None;
      currentChatType := Some(CupidKind);
    }

    /** The `popstate` handler. A path naming no chat resets all three variables. A paper code is
        reopened only when the reloaded match list holds a card with exactly that code (`matches`,
        already upper-cased as the cards are); a Cupid id is reopened with the session the server
        returns (`fetched`, None when the request fails). */
    method Popstate(path: string, decode: string -> string, matches: seq<string>, fetched: Option<string>)
      requires Valid()
      modifies this
      ensures Valid()
      ensures var p := PaperIdFromPath(path, decode);
        if p.id.None? || p.id.value == "" then
          currentPaper.None? && currentSessionId.None? && currentChatType.None?
        else if p.kind == Some(PaperKind) then
          if p.id.value in matches then
            currentPaper == p.id && currentSessionId.None? && currentChatType == Some(PaperKind)
          else unchanged(this)
        else if fetched.Some? then
          currentSessionId == fetched && currentPaper.None? && currentChatType == Some(CupidKind)
        else unchanged(this)
    {
      var p := PaperIdFromPath(path, decode);
      if p.id.None? || p.id.value == "" {
        currentPaper, currentSessionId, currentChatType := None, None, None;
        return;
      }
      if p.kind == Some(PaperKind) {
        if p.id.value in matches {
          OpenChat(p.id.value);
        }
      } else if fetched.Some? {
        OpenCupidChat(fetched.value);
      }
    }

    /** `init`, on a fresh page: a paper path opens the paper's chat; a Cupid path opens the session
        the server returns (`fetched`). */
    method Init(path: string, decode: string -> string, fetched: Option<string>)
      requires Valid()
      modifies this
      ensures Valid()
      ensures var p := PaperIdFromPath(path, decode);
        if p.kind == Some(PaperKind) then
          currentPaper == p.id && currentSessionId.None? && currentChatType == Some(PaperKind)
        else if p.kind == Some(CupidKind) && p.id.value != "" && fetched.Some? then
          currentSessionId == fetched && currentPaper.None? && currentChatType == Some(CupidKind)
        else unchanged(this)
    {
      var p := PaperIdFromPath(path, decode);
      if p.kind == Some(PaperKind) {
        OpenChat(p.id.value);
      } else if p.kind == Some(CupidKind) && p.id.value != "" && fetched.Some? {
        OpenCupidChat(fetched.value);
      }
    }

    /** `currentPaper || currentSessionId`: the first truthy one, or nothing. */
    function SendTarget(): (r: Option<string>)
      reads this
      ensures r.Some? ==> r.value != ""
      ensures r.Some? ==> r == currentPaper || r == currentSessionId
      ensures r.None? <==> (currentPaper.None? || currentPaper.value == "") &&
                           (currentSessionId.None? || currentSessionId.value == "")
      ensures currentPaper.Some? && currentPaper.value != "" ==> r == currentPaper
    {
      if currentPaper.Some? && currentPaper.value != "" then currentPaper
      else if currentSessionId.Some? && currentSessionId.value != "" then currentSessionId
      else None
    }

    /** `sendMessage`: the request it posts, or nothing when no chat is open. */
    function SendRequest(text: string): (r: Option<ChatRequest>)
      reads this
      ensures r.Some? <==> SendTarget().Some?
      ensures r.Some? ==> r.value == ChatRequest(SendTarget().value, text)
    {
      match SendTarget()
      case None => None
      case Some(target) => Some(ChatRequest(target, text))
    }

    /** The form's `submit`: the input is trimmed and nothing is sent when it is empty. */
    function SubmitRequest(input: string): (r: Option<ChatRequest>)
      reads this
      ensures r.Some? ==> r.value.message != [] && r.value.message == Text.Trim(input, JsWhitespace)
      ensures r.Some? <==> Text.Trim(input, JsWhitespace) != [] && SendTarget().Some?
      ensures r.Some? ==> r.value.target == SendTarget().value
    {
      var txt := Text.Trim(input, JsWhitespace);
      if txt == [] then None else SendRequest(txt)
    }

    /** The title editor opens only for a Cupid chat with a truthy session id. */
    predicate CanRename()
      reads this
    {
      currentChatType == Some(CupidKind) && currentSessionId.Some? && currentSessionId.value != ""
    }
  }

  /** In a consistent state the message goes to the open paper, or else to the open session. */
  lemma SendFollowsMode(v: ChatView)
    requires v.Valid()
    ensures v.currentChatType == Some(PaperKind) && v.currentPaper.value != "" ==> v.SendTarget() == v.currentPaper
    ensures v.currentChatType == Some(CupidKind) && v.currentSessionId.value != "" ==> v.SendTarget() == v.currentSessionId
    ensures v.currentChatType.None? ==> v.SendTarget().None?
  {
  }

  /** Renaming is possible only when no paper is open. */
  lemma RenameOnlyInCupidChat(v: ChatView)
    requires v.Valid() && v.CanRename()
    ensures v.currentPaper.None? && v.SendTarget() == v.currentSessionId
  {
  }
}

=== FILE: first_year.dfy ===
/** The first-year filter (webscrappers/first_year_filter.py): clean the lines of the paper-code
    file, then keep the codes whose fifth character is `1`. */
module FirstYear {
  import Seqs
  import Text

  /** Characters Python's `str.strip()` removes (`str.isspace`). */
  predicate PyWhitespace(c: char) {
    ('\t' <= c <= '\r') || ('\U{1C}' <= c <= '\U{1F}') || c == ' ' || c == '\U{85}' || c == '\U{A0}' ||
    c == '\U{1680}' || ('\U{2000}' <= c <= '\U{200A}') || c == '\U{2028}' || c == '\U{2029}' ||
    c == '\U{202F}' || c == '\U{205F}' || c == '\U{3000}'
  }

  function Strip(line: string): string {
    Text.Trim(line, PyWhitespace)
  }

  /** `[line.strip() for line in f if line.strip()]`. */
  function CleanLines(lines: seq<string>): (r: seq<string>)
    ensures |r| <= |lines|
  {
    if lines == [] then []
    else (if Strip(lines[0]) != [] then [Strip(lines[0])] else []) + CleanLines(lines[1..])
  }

  /** Every cleaned line is non-empty and stripped. */
  lemma {:induction false} CleanLinesTrimmed(lines: seq<string>)
    ensures forall x :: x in CleanLines(lines) ==> x != [] && Text.IsTrimmed(x, PyWhitespace)
  {
    if lines != [] {
      CleanLinesTrimmed(lines[1..]);
    }
  }

  /** The cleaned lines are exactly the stripped forms of the input lines that are not all white
      space. */
  lemma {:induction false} CleanLinesMembership(lines: seq<string>)
    ensures forall x :: x in CleanLines(lines) <==> exists l :: l in lines && Strip(l) == x && x != []
  {
    if lines != [] {
      CleanLinesMembership(lines[1..]);
      var rest := CleanLines(lines[1..]);
      assert lines == [lines[0]] + lines[1..];
      forall x ensures x in CleanLines(lines) <==> exists l :: l in lines && Strip(l) == x && x != [] {
        if x in CleanLines(lines) && x !in rest {
          assert Strip(lines[0]) == x;
        }
      }
    }
  }

  /** A whitespace-only line is dropped. */
  lemma BlankLineDropped(lines: seq<string>, blank: string)
    requires Text.AllWhitespace(blank, PyWhitespace)
    ensures CleanLines([blank] + lines) == CleanLines(lines)
  {
    Text.TrimEmpty(blank, PyWhitespace);
    assert ([blank] + lines)[1..] == lines;
  }

  /** `len(code) >= 5 and code[4] == "1"`: a 100-level paper. */
  predicate IsFirstYear(code: string) {
    |code| >= 5 && code[4] == '1'
  }

  /** `[code for code in paper_codes if len(code) >= 5 and code[4] == "1"]`. */
  function FirstYearPapers(codes: seq<string>): (r: seq<string>)
    ensures |r| <= |codes|
  {
    Seqs.Filter(codes, IsFirstYear)
  }

  /** A code is in the output exactly when it is in the input and its fifth character is `1`. */
  lemma FirstYearMembership(codes: seq<string>)
    ensures forall c :: c in FirstYearPapers(codes) <==> c in codes && |c| >= 5 && c[4] == '1'
  {
    Seqs.FilterMembership(codes, IsFirstYear);
  }

  /** The output keeps the input's order and every duplicate of a first-year code. */
  lemma FirstYearOrderAndDuplicates(codes: seq<string>, c: string)
    ensures Seqs.IsSubsequence(FirstYearPapers(codes), codes)
    ensures multiset(FirstYearPapers(codes))[c] == if IsFirstYear(c) then multiset(codes)[c] else 0
  {
    Seqs.FilterIsSubsequence(codes, IsFirstYear);
    Seqs.FilterMultiplicity(codes, IsFirstYear, c);
  }

  /** Filtering the output again changes nothing. */
  lemma FirstYearIdempotent(codes: seq<string>)
    ensures FirstYearPapers(FirstYearPapers(codes)) == FirstYearPapers(codes)
  {
    Seqs.FilterIdempotent(codes, IsFirstYear);
  }

  /** The script as a whole: the lines of `paper_codes.txt` to those of `paper_codes_100.txt`. */
  function FilterFile(lines: seq<string>): seq<string> {
    FirstYearPapers(CleanLines(lines))
  }

  /** Every line written is a stripped, non-empty first-year code taken from some input line. */
  lemma FilterFileOutput(lines: seq<string>)
    ensures forall x :: x in FilterFile(lines) ==>
      IsFirstYear(x) && Text.IsTrimmed(x, PyWhitespace) && exists l :: l in lines && Strip(l) == x
  {
    CleanLinesTrimmed(lines);
    CleanLinesMembership(lines);
    FirstYearMembership(CleanLines(lines));
    forall x | x in FilterFile(lines)
      ensures IsFirstYear(x) && Text.IsTrimmed(x, PyWhitespace) && exists l :: l in lines && Strip(l) == x
    {
      var cleaned := CleanLines(lines);
      var i :| 0 <= i < |cleaned| && cleaned[i] == x;
    }
  }
}

=== FILE: paper_chat.dfy ===
/** The paper-chat request handler of server.js (`POST /api/chat/:paperId`) over an in-memory
    copy of the `paper`, `Chat_Session` and `Chat_Message` tables. */
module PaperChat {
  import opened Wrappers
  import opened Transcript
  import Seqs

  /** What the language-model call yields: the reply text, or a failure (network error,
      malformed answer, missing `choices[0]`). */
  datatype Completion = Completed(content: string) | Failed

  /** HTTP status and the `reply` field of the JSON body. */
  datatype Response = Response(status: nat, reply: string)

  const NotFoundReply := "Error: Paper not found."
  const FailureReply := "Error: could not connect to AI."

  /** The two chat tables in insertion order, with the timestamp source (`new Date()`, every reading
      later than the one before) and the identifier source (`uuidv4()`, every id new). */
  datatype Store = Store(sessions: seq<SessionRow>, messages: seq<MessageRow>, clock: nat, nextId: nat)

  datatype Outcome = Outcome(after: Store, response: Response)

  /** The store's invariant: both tables in creation order, unique session ids, and every id and
      timestamp in use older than what the sources hand out next. */
  ghost predicate StoreInvariant(st: Store) {
    && SessionsInCreationOrder(st.sessions)
    && UniqueSessionIds(st.sessions)
    && MessagesInCreationOrder(st.messages)
    && (forall i :: 0 <= i < |st.sessions| ==>
          st.sessions[i].id < st.nextId && st.sessions[i].createdAt < st.clock && st.sessions[i].updatedAt < st.clock)
    && (forall i :: 0 <= i < |st.messages| ==>
          st.messages[i].id < st.nextId && st.messages[i].sessionId < st.nextId && st.messages[i].createdAt < st.clock)
  }

  /** `req.session?.userId || null`: a missing or empty user id becomes NULL. */
  function CallerId(sessionUser: Option<UserId>): (r: Option<UserId>)
    ensures r.Some? <==> sessionUser.Some? && sessionUser.value != ""
    ensures r.Some? ==> r == sessionUser
  {
    if sessionUser.Some? && sessionUser.value != "" then sessionUser else None
  }

  /** The session a request for `paperId` writes to: the caller's latest one, or a new one. */
  function TargetSession(st: Store, user: Option<UserId>, paperId: string): (r: Uuid)
    ensures StoreInvariant(st) ==> (r == st.nextId <==> LatestMatch(st.sessions, user, paperId).None?)
    ensures LatestMatch(st.sessions, user, paperId).Some? ==> r == st.sessions[LatestMatch(st.sessions, user, paperId).value].id
  {
    var found := LatestMatch(st.sessions, user, paperId);
    if found.Some? then st.sessions[found.value].id else st.nextId
  }

  /** Find-or-create at time `now`: the UPDATE of the found row's `updated_at`, or the INSERT of a
      new row with a fresh id, `created_at = updated_at = now` and `starred = false`. */
  function Opened(st: Store, user: Option<UserId>, paperId: string, now: nat): (r: Store)
    ensures r.messages == st.messages && r.clock == st.clock
    ensures |r.sessions| == |st.sessions| + (r.nextId - st.nextId) && st.nextId <= r.nextId <= st.nextId + 1
  {
    var found := LatestMatch(st.sessions, user, paperId);
    if found.Some? then st.(sessions := Touch(st.sessions, st.sessions[found.value].id, now))
    else st.(sessions := st.sessions + [SessionRow(st.nextId, user, Some(paperId), now, now, false)],
             nextId := st.nextId + 1)
  }

  /** `INSERT INTO Chat_Message` of one row with a fresh id, stamped `at`. */
  function WithMessage(st: Store, sid: Uuid, role: string, content: Option<string>, at: nat): (r: Store)
    ensures r.sessions == st.sessions && r.clock == st.clock && r.nextId == st.nextId + 1
    ensures |r.messages| == |st.messages| + 1 && r.messages[..|st.messages|] == st.messages
  {
    st.(messages := st.messages + [MessageRow(st.nextId, sid, role, content, at)], nextId := st.nextId + 1)
  }

  /** The tables once the session is found or created and the user's row stored, all at the
      request's `now`. */
  function Admitted(st: Store, user: Option<UserId>, paperId: string, message: Option<string>): (r: Store)
    ensures r.clock == st.clock + 1 && |st.sessions| <= |r.sessions| <= |st.sessions| + 1
    ensures |r.messages| == |st.messages| + 1 && r.messages[..|st.messages|] == st.messages
  {
    var now := st.clock;
    WithMessage(Opened(st.(clock := now + 1), user, paperId, now), TargetSession(st, user, paperId), "user", message, now)
  }

  /** The conversation handed to the model: the paper's prompt and the history of session `sid`. */
  function RequestContext(paper: Paper, messages: seq<MessageRow>, sid: Uuid): seq<Turn> {
    ContextWindow(Prompt(paper), HistoryQuery(messages, sid))
  }

  /** The handler as a function of the tables before the request. */
  function Handle(papers: map<string, Paper>, st: Store, paperId: string, message: Option<string>,
                  sessionUser: Option<UserId>, llm: seq<Turn> -> Completion): (r: Outcome)
    ensures r.response.status == 404 <==> paperId !in papers
    ensures r.response.status == 404 || r.response == Response(500, FailureReply) || r.response.status == 200
    ensures |st.sessions| <= |r.after.sessions| && |st.messages| <= |r.after.messages|
    ensures r.after.messages[..|st.messages|] == st.messages
  {
    if paperId !in papers then Outcome(st, Response(404, NotFoundReply))
    else
      var user := CallerId(sessionUser);
      var admitted := Admitted(st, user, paperId, message);
      match llm(RequestContext(papers[paperId], admitted.messages, TargetSession(st, user, paperId)))
      case Failed =>
        Outcome(admitted, Response(500, FailureReply))
      case Completed(reply) =>
        var at := admitted.clock;
        Outcome(WithMessage(admitted.(clock := at + 1), TargetSession(st, user, paperId), "assistant", Some(reply), at),
                Response(200, reply))
  }

  /** For a known paper the model sees the prompt and the session's history read after the user's
      row is stored. A failed call is exactly the 500 answer, which keeps the tables as admitted; a
      completed call is answered 200 with the model's content. The session table is find-or-create's. */
  lemma HandleAnswersWithModel(papers: map<string, Paper>, st: Store, paperId: string, message: Option<string>,
                               sessionUser: Option<UserId>, llm: seq<Turn> -> Completion)
    requires paperId in papers
    ensures var user := CallerId(sessionUser);
      var admitted := Admitted(st, user, paperId, message);
      var ctx := RequestContext(papers[paperId], admitted.messages, TargetSession(st, user, paperId));
      var r := Handle(papers, st, paperId, message, sessionUser, llm);
      && (llm(ctx).Failed? <==> r.response == Response(500, FailureReply))
      && (llm(ctx).Failed? ==> r.after == admitted)
      && (llm(ctx).Completed? ==> r.response == Response(200, llm(ctx).content))
      && r.after.sessions == Opened(st.(clock := st.clock + 1), user, paperId, st.clock).sessions
  {
  }

  /** An unknown paper code is answered 404 "Error: Paper not found." and nothing is written. */
  lemma UnknownPaperWritesNothing(papers: map<string, Paper>, st: Store, paperId: string, message: Option<string>,
                                  sessionUser: Option<UserId>, llm: seq<Turn> -> Completion)
    requires paperId !in papers
    ensures Handle(papers, st, paperId, message, sessionUser, llm) == Outcome(st, Response(404, NotFoundReply))
  {
  }

  /** Without a matching session exactly one session is created, with an id no session has, the
      caller and the paper, `created_at = updated_at = now` and `starred = false`; with one, the most
      recently created match is reused and only its `updated_at` changes. An anonymous caller always
      gets a new session, because `user_id = NULL` matches no row. */
  lemma SessionFindOrCreate(st: Store, user: Option<UserId>, paperId: string, now: nat)
    requires StoreInvariant(st)
    ensures var found, after := LatestMatch(st.sessions, user, paperId), Opened(st, user, paperId, now).sessions;
      && (found.None? ==>
            && after == st.sessions + [SessionRow(st.nextId, user, Some(paperId), now, now, false)]
            && forall i :: 0 <= i < |st.sessions| ==> st.sessions[i].id != st.nextId)
      && (found.Some? ==>
            after == st.sessions[found.value := st.sessions[found.value].(updatedAt := now)])
      && (user.None? ==> found.None?)
  {
    var found := LatestMatch(st.sessions, user, paperId);
    if found.Some? {
      TouchChangesOnlyTarget(st.sessions, found.value, now);
    }
  }

  /** Storing a row appends it to its own session's transcript and leaves every other session's
      transcript as it was. */
  lemma WithMessageTranscripts(st: Store, sid: Uuid, role: string, content: Option<string>, at: nat, other: Uuid)
    ensures var after := WithMessage(st, sid, role, content, at);
      && SessionRows(after.messages, sid) == SessionRows(st.messages, sid) + [MessageRow(st.nextId, sid, role, content, at)]
      && (other != sid ==> SessionRows(after.messages, other) == SessionRows(st.messages, other))
  {
    var row := MessageRow(st.nextId, sid, role, content, at);
    SessionRowsAppend(st.messages, row);
    if other != sid {
      SessionRowsAppendOther(st.messages, row, other);
    }
  }

  /** On success the session's transcript gains exactly the user turn then the assistant turn, and
      the reply returned is the content stored; on failure the response is 500 "Error: could not
      connect to AI." and the user turn stays stored. No other session's transcript changes. */
  lemma TranscriptGrowth(papers: map<string, Paper>, st: Store, paperId: string, message: Option<string>,
                         sessionUser: Option<UserId>, llm: seq<Turn> -> Completion, other: Uuid)
    requires paperId in papers
    ensures var user := CallerId(sessionUser);
      var sid := TargetSession(st, user, paperId);
      var o := Handle(papers, st, paperId, message, sessionUser, llm);
      var before := SessionRows(st.messages, sid);
      var now := SessionRows(o.after.messages, sid);
      && (o.response.status == 200 ==>
            && |now| == |before| + 2
            && now[..|before|] == before
            && now[|before|].role == "user" && now[|before|].content == message
            && now[|before| + 1].role == "assistant" && now[|before| + 1].content == Some(o.response.reply))
      && (o.response.status != 200 ==>
            && o.response == Response(500, FailureReply)
            && |now| == |before| + 1 && now[..|before|] == before
            && now[|before|].role == "user" && now[|before|].content == message)
      && (other != sid ==> SessionRows(o.after.messages, other) == SessionRows(st.messages, other))
  {
    var user := CallerId(sessionUser);
    var sid := TargetSession(st, user, paperId);
    var session := Opened(st.(clock := st.clock + 1), user, paperId, st.clock);
    var admitted := Admitted(st, user, paperId, message);
    assert admitted == WithMessage(session, sid, "user", message, st.clock);
    WithMessageTranscripts(session, sid, "user", message, st.clock, other);
    var before := SessionRows(st.messages, sid);
    var userRow := MessageRow(session.nextId, sid, "user", message, st.clock);
    assert SessionRows(admitted.messages, sid) == before + [userRow];
    var o := Handle(papers, st, paperId, message, sessionUser, llm);
    match llm(RequestContext(papers[paperId], admitted.messages, sid))
    case Failed =>
      assert o == Outcome(admitted, Response(500, FailureReply));
      assert (before + [userRow])[..|before|] == before;
    case Completed(reply) =>
      var t := admitted.(clock := admitted.clock + 1);
      assert o == Outcome(WithMessage(t, sid, "assistant", Some(reply), admitted.clock), Response(200, reply));
      WithMessageTranscripts(t, sid, "assistant", Some(reply), admitted.clock, other);
      var replyRow := MessageRow(t.nextId, sid, "assistant", Some(reply), admitted.clock);
      assert SessionRows(o.after.messages, sid) == before + [userRow] + [replyRow];
      assert (before + [userRow] + [replyRow])[..|before|] == before;
  }

  /** No stored row refers to an id not handed out yet, so a new session starts with an empty
      transcript. */
  lemma NewSessionStartsEmpty(st: Store)
    requires StoreInvariant(st)
    ensures SessionRows(st.messages, st.nextId) == []
  {
    SessionRowsNone(st.messages, st.nextId);
  }

  /** The user's turn is stored before the history is read, so when its content is non-empty it is
      the last turn the model sees; the system prompt comes first and at most eight turns follow. */
  lemma ContextCarriesUserTurn(paper: Paper, st: Store, user: Option<UserId>, paperId: string, message: Option<string>)
    ensures var c := RequestContext(paper, Admitted(st, user, paperId, message).messages, TargetSession(st, user, paperId));
      && 1 <= |c| <= 1 + HistoryLimit
      && c[0] == Turn("system", Prompt(paper))
      && (message.Some? && message.value != "" ==> c[|c| - 1] == Turn("user", message.value))
  {
    var sid := TargetSession(st, user, paperId);
    var session := Opened(st.(clock := st.clock + 1), user, paperId, st.clock);
    var msgs := Admitted(st, user, paperId, message).messages;
    ContextWindowShape(Prompt(paper), msgs, sid);
    if message.Some? && message.value != "" {
      NewestUserTurnIsLast(Prompt(paper), session.messages, MessageRow(session.nextId, sid, "user", message, st.clock));
    }
  }

  /** Reading the clock and then finding or creating the session keeps the invariant. */
  lemma OpenedKeepsInvariant(st: Store, user: Option<UserId>, paperId: string)
    requires StoreInvariant(st)
    ensures StoreInvariant(Opened(st.(clock := st.clock + 1), user, paperId, st.clock))
  {
    var found := LatestMatch(st.sessions, user, paperId);
    if found.Some? {
      TouchChangesOnlyTarget(st.sessions, found.value, st.clock);
    }
  }

  /** Storing a row of an existing session at the clock's last reading keeps the invariant. */
  lemma WithMessageKeepsInvariant(st: Store, sid: Uuid, role: string, content: Option<string>, at: nat)
    requires StoreInvariant(st) && sid < st.nextId && at + 1 == st.clock
    requires forall i :: 0 <= i < |st.messages| ==> st.messages[i].createdAt < at
    ensures StoreInvariant(WithMessage(st, sid, role, content, at))
  {
  }

  /** Admitting a request (clock reading, find-or-create, user row) keeps the invariant. */
  lemma AdmittedKeepsInvariant(st: Store, user: Option<UserId>, paperId: string, message: Option<string>)
    requires StoreInvariant(st)
    ensures StoreInvariant(Admitted(st, user, paperId, message))
  {
    var session := Opened(st.(clock := st.clock + 1), user, paperId, st.clock);
    OpenedKeepsInvariant(st, user, paperId);
    WithMessageKeepsInvariant(session, TargetSession(st, user, paperId), "user", message, st.clock);
  }

  /** Every request keeps the store's invariant. */
  lemma HandleKeepsInvariant(papers: map<string, Paper>, st: Store, paperId: string, message: Option<string>,
                             sessionUser: Option<UserId>, llm: seq<Turn> -> Completion)
    requires StoreInvariant(st)
    ensures StoreInvariant(Handle(papers, st, paperId, message, sessionUser, llm).after)
  {
    if paperId in papers {
      var user := CallerId(sessionUser);
      var admitted := Admitted(st, user, paperId, message);
      AdmittedKeepsInvariant(st, user, paperId, message);
      var completion := llm(RequestContext(papers[paperId], admitted.messages, TargetSession(st, user, paperId)));
      if completion.Completed? {
        var t := admitted.(clock := admitted.clock + 1);
        WithMessageKeepsInvariant(t, TargetSession(st, user, paperId), "assistant", Some(completion.content), admitted.clock);
      }
    }
  }

  class ChatStore {
    /** The `paper` table, keyed by `paper_code`; the handler only reads it. */
    var papers: map<string, Paper>
    var sessions: seq<SessionRow>
    var messages: seq<MessageRow>
    var clock: nat
    var nextId: nat

    ghost function State(): Store
      reads this
    {
      Store(sessions, messages, clock, nextId)
    }

    ghost predicate Valid()
      reads this
    {
      StoreInvariant(State())
    }

    constructor (papers: map<string, Paper>)
      ensures Valid()
      ensures this.papers == papers && sessions == [] && messages == []
    {
      this.papers := papers;
      sessions, messages := [], [];
      clock, nextId := 0, 0;
    }

    /** `new Date()`. */
    method Now() returns (t: nat)
      modifies this`clock
      ensures t == old(clock) && clock == t + 1
    {
      t := clock;
      clock := clock + 1;
    }

    /** `uuidv4()`. */
    method FreshId() returns (id: Uuid)
      modifies this`nextId
      ensures id == old(nextId) && nextId == id + 1
    {
      id := nextId;
      nextId := nextId + 1;
    }

    /** Find-or-create of the caller's session for `paperId`, stamped `now`. */
    method OpenSession(user: Option<UserId>, paperId: string, now: nat) returns (sid: Uuid)
      modifies this`sessions, this`nextId
      ensures State() == Opened(old(State()), user, paperId, now)
      ensures sid == TargetSession(old(State()), user, paperId)
    {
      var found := LatestMatch(sessions, user, paperId);
      if found.None? {
        sid := FreshId();
        sessions := sessions + [SessionRow(sid, user, Some(paperId), now, now, false)];
      } else {
        sid := sessions[found.value].id;
        sessions := Touch(sessions, sid, now);
      }
    }

    /** Stores one message row of session `sid`, stamped `at`. */
    method AddMessage(sid: Uuid, role: string, content: Option<string>, at: nat)
      modifies this`messages, this`nextId
      ensures State() == WithMessage(old(State()), sid, role, content, at)
    {
      var id := FreshId();
      messages := messages + [MessageRow(id, sid, role, content, at)];
    }

    /** Reads the clock, finds or creates the caller's session and stores the user's row. */
    method Admit(user: Option<UserId>, paperId: string, message: Option<string>) returns (sid: Uuid)
      requires Valid()
      modifies this`sessions, this`messages, this`clock, this`nextId
      ensures Valid()
      ensures State() == Admitted(old(State()), user, paperId, message)
      ensures sid == TargetSession(old(State()), user, paperId)
    {
      ghost var before := State();
      AdmittedKeepsInvariant(before, user, paperId, message);
      var now := Now();
      sid := OpenSession(user, paperId, now);
      AddMessage(sid, "user", message, now);
      assert State() == Admitted(before, user, paperId, message);
    }

    /** Handles one chat message for a paper, step by step as the source does; the resulting
        tables and response are those of Handle. */
    method PostChat(paperId: string, message: Option<string>, sessionUser: Option<UserId>,
                    llm: seq<Turn> -> Completion)
      returns (res: Response)
      requires Valid()
      modifies this
      ensures Valid() && papers == old(papers)
      ensures Outcome(State(), res) == Handle(old(papers), old(State()), paperId, message, sessionUser, llm)
    {
      HandleKeepsInvariant(papers, State(), paperId, message, sessionUser, llm);
      if paperId !in papers {
        return Response(404, NotFoundReply);
      }
      var paper := papers[paperId];
      var user := CallerId(sessionUser);
      var sid := Admit(user, paperId, message);
      var context := RequestContext(paper, messages, sid);
      var completion := llm(context);
      if completion.Failed? {
        return Response(500, FailureReply);
      }
      var at := Now();
      AddMessage(sid, "assistant", Some(completion.content), at);
      res := Response(200, completion.content);
    }
  }
}

=== FILE: paper_import.dfy ===
/** The paper import script (db/importPapers.js): every complete record of the scraped data is
    inserted into the `paper` table unless a row with its code already exists, and the records
    actually inserted are collected in order. */
module PaperImport {
  import opened Wrappers
  import Seqs

  /** A scraped record; a field is None when it is missing or null. */
  datatype Record = Record(paperCode: Option<string>, title: Option<string>, subject: Option<string>,
                           description: Option<string>)

  /** JavaScript truthiness of a string field: present and non-empty. */
  predicate Truthy(v: Option<string>) {
    v.Some? && v.value != ""
  }

  /** A record is imported only when all four fields are truthy. */
  predicate Complete(p: Record) {
    Truthy(p.paperCode) && Truthy(p.title) && Truthy(p.subject) && Truthy(p.description)
  }

  /** A row of the `paper` table, keyed by `paper_code`. */
  datatype PaperRow = PaperRow(title: string, description: string, points: nat, isActive: bool)

  /** The `points` every imported paper is given. */
  const ImportedPoints: nat := 18

  /** The row the INSERT writes: code, title and description from the record, 18 points, active;
      the subject is not stored. */
  function NewRow(p: Record): PaperRow
    requires Complete(p)
  {
    PaperRow(p.title.value, p.description.value, ImportedPoints, true)
  }

  /** The table and the `insertedPapers` list. */
  datatype Imported = Imported(rows: map<string, PaperRow>, inserted: seq<Record>)

  /** One iteration: an incomplete record is skipped; a complete one is inserted and collected
      unless its code is already taken (`ON CONFLICT DO NOTHING` returns no row). */
  function Step(acc: Imported, p: Record): (r: Imported)
    ensures forall k :: k in acc.rows ==> k in r.rows && r.rows[k] == acc.rows[k]
    ensures r.inserted == acc.inserted + [p] <==> Complete(p) && p.paperCode.value !in acc.rows
    ensures r.inserted == acc.inserted || r.inserted == acc.inserted + [p]
  {
    if !Complete(p) || p.paperCode.value in acc.rows then acc
    else Imported(acc.rows[p.paperCode.value := NewRow(p)], acc.inserted + [p])
  }

  /** The whole loop over `recs`, starting from the table `rows`. */
  function Import(rows: map<string, PaperRow>, recs: seq<Record>): Imported {
    if recs == [] then Imported(rows, [])
    else Step(Import(rows, recs[..|recs| - 1]), recs[|recs| - 1])
  }

  /** How far the loop gets: up to the complete record whose INSERT throws (`failAt`), or to the end.
      The exception ends the loop and `insertedPapers` is written as it stands. */
  function StopIndex(recs: seq<Record>, failAt: Option<nat>): (n: nat)
    ensures n <= |recs|
    ensures n < |recs| ==> failAt == Some(n) && Complete(recs[n])
    ensures failAt.Some? && failAt.value < |recs| && Complete(recs[failAt.value]) ==> n == failAt.value
  {
    if failAt.Some? && failAt.value < |recs| && Complete(recs[failAt.value]) then failAt.value else |recs|
  }

  /** What the import promises about its result, relative to the table it started from. */
  ghost predicate ImportInvariant(rows: map<string, PaperRow>, acc: Imported) {
    && (forall k :: k in rows ==> k in acc.rows && acc.rows[k] == rows[k])
    && (forall i :: 0 <= i < |acc.inserted| ==>
          var p := acc.inserted[i];
          Complete(p) && p.paperCode.value !in rows &&
          p.paperCode.value in acc.rows && acc.rows[p.paperCode.value] == NewRow(p))
    && (forall i, j :: 0 <= i < j < |acc.inserted| ==>
          acc.inserted[i].paperCode.value != acc.inserted[j].paperCode.value)
    && (forall k :: k in acc.rows ==>
          k in rows || exists i :: 0 <= i < |acc.inserted| && acc.inserted[i].paperCode.value == k)
  }

  lemma StepKeepsInvariant(rows: map<string, PaperRow>, acc: Imported, p: Record)
    requires ImportInvariant(rows, acc)
    ensures ImportInvariant(rows, Step(acc, p))
  {
    if Complete(p) && p.paperCode.value !in acc.rows {
      var code := p.paperCode.value;
      var next := Step(acc, p);
      assert next.inserted[|acc.inserted|] == p;
      forall k | k in next.rows
        ensures k in rows || exists i :: 0 <= i < |next.inserted| && next.inserted[i].paperCode.value == k
      {
        if k == code {
          assert next.inserted[|acc.inserted|].paperCode.value == k;
        } else if k !in rows {
          var i :| 0 <= i < |acc.inserted| && acc.inserted[i].paperCode.value == k;
          assert next.inserted[i] == acc.inserted[i];
        }
      }
    }
  }

  /** Existing rows are never modified; every collected record is complete, was absent from the
      table, and its row is the one built from it; no code is collected twice; and every row is an
      old one or belongs to a collected record. */
  lemma {:induction false} ImportProperties(rows: map<string, PaperRow>, recs: seq<Record>)
    ensures ImportInvariant(rows, Import(rows, recs))
  {
    if recs != [] {
      ImportProperties(rows, recs[..|recs| - 1]);
      StepKeepsInvariant(rows, Import(rows, recs[..|recs| - 1]), recs[|recs| - 1]);
    }
  }

  /** `insertedPapers` keeps the order of the input. */
  lemma {:induction false} ImportKeepsOrder(rows: map<string, PaperRow>, recs: seq<Record>)
    ensures Seqs.IsSubsequence(Import(rows, recs).inserted, recs)
  {
    if recs != [] {
      var front := recs[..|recs| - 1];
      var last := recs[|recs| - 1];
      ImportKeepsOrder(rows, front);
      assert recs == front + [last];
      var before := Import(rows, front).inserted;
      if Import(rows, recs).inserted == before {
        Seqs.SubsequenceExtend(before, front, last);
      } else {
        Seqs.SubsequenceSnoc(before, front, last);
      }
    }
  }

  /** Importing in two runs is importing once: the second run starts from the first run's table,
      and its collected records follow the first run's. */
  lemma {:induction false} ImportAppend(rows: map<string, PaperRow>, a: seq<Record>, b: seq<Record>)
    ensures Import(rows, a + b) == Import(Import(rows, a).rows, b).(inserted := Import(rows, a).inserted + Import(Import(rows, a).rows, b).inserted)
  {
    if b == [] {
      assert a + b == a;
    } else {
      var b' := b[..|b| - 1];
      assert (a + b)[..|a + b| - 1] == a + b';
      assert (a + b)[|a + b| - 1] == b[|b| - 1];
      ImportAppend(rows, a, b');
    }
  }

  /** The `paper` table. */
  class PaperTable {
    var rows: map<string, PaperRow>

    constructor (rows: map<string, PaperRow>)
      ensures this.rows == rows
    {
      this.rows := rows;
    }

    /** `INSERT ... ON CONFLICT (paper_code) DO NOTHING RETURNING paper_code`: whether a row came back. */
    method InsertIfAbsent(p: Record) returns (created: bool)
      requires Complete(p)
      modifies this
      ensures created <==> p.paperCode.value !in old(rows)
      ensures rows == if created then old(rows)[p.paperCode.value := NewRow(p)] else old(rows)
    {
      created := p.paperCode.value !in rows;
      if created {
        rows := rows[p.paperCode.value := NewRow(p)];
      }
    }
  }

  /** `importPapers`: the records in iteration order; `failAt` is the index of the record whose
      INSERT throws, if any. */
  method ImportPapers(table: PaperTable, papers: seq<Record>, failAt: Option<nat>) returns (insertedPapers: seq<Record>)
    modifies table
    ensures var r := Import(old(table.rows), papers[..StopIndex(papers, failAt)]);
      table.rows == r.rows && insertedPapers == r.inserted
  {
    ghost var start := table.rows;
    insertedPapers := [];
    var i := 0;
    while i < |papers|
      invariant i <= StopIndex(papers, failAt)
      invariant Imported(table.rows, insertedPapers) == Import(start, papers[..i])
    {
      var paper := papers[i];
      assert papers[..i + 1][..i] == papers[..i];
      if !Complete(paper) {
        i := i + 1;
        continue;
      }
      if failAt == Some(i) {
        break;
      }
      var created := table.InsertIfAbsent(paper);
      if created {
        insertedPapers := insertedPapers + [paper];
      }
      i := i + 1;
    }
  }
}

=== FILE: seqs.dfy ===
/** Sequence operations shared by the model: reversal, filtering and subsequences. */
module Seqs {

  /** `Array.prototype.reverse` on a value: element i moves to position |s| - 1 - i. */
  function Reverse<T>(s: seq<T>): (r: seq<T>)
    ensures |r| == |s|
  {
    seq(|s|, i requires 0 <= i < |s| => s[|s| - 1 - i])
  }

  /** Element i of the reversal is element |s| - 1 - i of the original. */
  lemma ReverseAt<T>(s: seq<T>)
    ensures forall i :: 0 <= i < |s| ==> Reverse(s)[i] == s[|s| - 1 - i]
  {
  }

  /** Reversal moves the first element to the end. */
  lemma ReverseCons<T>(s: seq<T>)
    requires s != []
    ensures Reverse(s) == Reverse(s[1..]) + [s[0]]
  {
    ReverseAt(s);
    ReverseAt(s[1..]);
    assert forall i :: 0 <= i < |s| - 1 ==> Reverse(s)[i] == Reverse(s[1..])[i];
  }

  lemma ReverseAppend<T>(a: seq<T>, b: seq<T>)
    ensures Reverse(a + b) == Reverse(b) + Reverse(a)
  {
    var l, r := Reverse(a + b), Reverse(b) + Reverse(a);
    ReverseAt(a + b); ReverseAt(a); ReverseAt(b);
    assert |l| == |r|;
    forall i | 0 <= i < |l| ensures l[i] == r[i] {
      if i < |b| {
        assert l[i] == (a + b)[|a| + |b| - 1 - i] == b[|b| - 1 - i];
      } else {
        assert l[i] == (a + b)[|a| + |b| - 1 - i] == a[|a| - 1 - (i - |b|)];
      }
    }
  }

  /** Taking the first n elements of the reversed sequence and reversing them back
      yields the last n elements of the original, in their original order. */
  lemma ReverseTakeReverse<T>(s: seq<T>, n: nat)
    requires n <= |s|
    ensures Reverse(Reverse(s)[..n]) == s[|s| - n..]
  {
    var rs := Reverse(s);
    var t := rs[..n];
    var l := Reverse(t);
    var r := s[|s| - n..];
    ReverseAt(s); ReverseAt(t);
    forall i | 0 <= i < n ensures l[i] == r[i] {
      var k := n - 1 - i;
      assert l[i] == t[k];
      assert t[k] == rs[k];
      assert rs[k] == s[|s| - 1 - k];
    }
    assert l == r;
  }

  /** `Array.prototype.filter` / a list comprehension with an `if`: the elements that satisfy p, in order. */
  function Filter<T(==,!new)>(s: seq<T>, p: T -> bool): (r: seq<T>)
    ensures |r| <= |s|
  {
    if s == [] then [] else (if p(s[0]) then [s[0]] else []) + Filter(s[1..], p)
  }

  /** Every kept element satisfies p. */
  lemma FilterAll<T(!new)>(s: seq<T>, p: T -> bool)
    ensures forall i :: 0 <= i < |Filter(s, p)| ==> p(Filter(s, p)[i])
  {
    FilterMembership(s, p);
    forall i | 0 <= i < |Filter(s, p)| ensures p(Filter(s, p)[i]) {
      assert Filter(s, p)[i] in Filter(s, p);
    }
  }

  /** A value is kept exactly when it occurs in s and satisfies p. */
  lemma {:induction false} FilterMembership<T(!new)>(s: seq<T>, p: T -> bool)
    ensures forall x :: x in Filter(s, p) <==> x in s && p(x)
  {
    if s != [] {
      FilterMembership(s[1..], p);
      assert s == [s[0]] + s[1..];
    }
  }

  lemma {:induction false} FilterAppend<T(!new)>(a: seq<T>, b: seq<T>, p: T -> bool)
    ensures Filter(a + b, p) == Filter(a, p) + Filter(b, p)
  {
    if a == [] {
      assert a + b == b;
    } else {
      var head := if p(a[0]) then [a[0]] else [];
      assert (a + b)[0] == a[0];
      assert (a + b)[1..] == a[1..] + b;
      FilterAppend(a[1..], b, p);
      calc {
        Filter(a + b, p);
        head + Filter(a[1..] + b, p);
        head + (Filter(a[1..], p) + Filter(b, p));
        (head + Filter(a[1..], p)) + Filter(b, p);
        Filter(a, p) + Filter(b, p);
      }
    }
  }

  /** Filtering commutes with reversal. */
  lemma {:induction false} FilterReverse<T(!new)>(s: seq<T>, p: T -> bool)
    ensures Filter(Reverse(s), p) == Reverse(Filter(s, p))
  {
    if s != [] {
      var head := if p(s[0]) then [s[0]] else [];
      calc {
        Filter(Reverse(s), p);
        { ReverseCons(s); }
        Filter(Reverse(s[1..]) + [s[0]], p);
        { FilterAppend(Reverse(s[1..]), [s[0]], p); }
        Filter(Reverse(s[1..]), p) + Filter([s[0]], p);
        { FilterReverse(s[1..], p); assert Filter([s[0]], p) == head; }
        Reverse(Filter(s[1..], p)) + head;
        { assert Reverse(head) == head; }
        Reverse(Filter(s[1..], p)) + Reverse(head);
        { ReverseAppend(head, Filter(s[1..], p));
          ReverseAt(head); }
        Reverse(head + Filter(s[1..], p));
      }
    }
  }

  /** Filtering twice by the same predicate is filtering once. */
  lemma {:induction false} FilterIdempotent<T(!new)>(s: seq<T>, p: T -> bool)
    ensures Filter(Filter(s, p), p) == Filter(s, p)
  {
    if s != [] {
      FilterIdempotent(s[1..], p);
      var head := if p(s[0]) then [s[0]] else [];
      FilterAppend(head, Filter(s[1..], p), p);
      assert Filter(head, p) == head;
    }
  }

  /** Every kept value keeps its multiplicity; every rejected value disappears. */
  lemma {:induction false} FilterMultiplicity<T(!new)>(s: seq<T>, p: T -> bool, x: T)
    ensures multiset(Filter(s, p))[x] == if p(x) then multiset(s)[x] else 0
  {
    if s != [] {
      FilterMultiplicity(s[1..], p, x);
      assert s == [s[0]] + s[1..];
      assert multiset(s) == multiset([s[0]]) + multiset(s[1..]);
    }
  }

  /** a can be obtained from b by deleting elements (order is kept). */
  ghost predicate IsSubsequence<T>(a: seq<T>, b: seq<T>)
    decreases |b|
  {
    a == [] ||
    (b != [] && (IsSubsequence(a, b[1..]) || (a[0] == b[0] && IsSubsequence(a[1..], b[1..]))))
  }

  lemma {:induction false} FilterIsSubsequence<T(!new)>(s: seq<T>, p: T -> bool)
    ensures IsSubsequence(Filter(s, p), s)
  {
    if s != [] {
      FilterIsSubsequence(s[1..], p);
      var f := Filter(s, p);
      if p(s[0]) {
        assert f == [s[0]] + Filter(s[1..], p);
        assert f[0] == s[0] && f[1..] == Filter(s[1..], p);
      } else {
        assert f == Filter(s[1..], p);
      }
    }
  }

  /** Appending to the larger sequence keeps a subsequence. */
  lemma {:induction false} SubsequenceExtend<T>(a: seq<T>, b: seq<T>, x: T)
    requires IsSubsequence(a, b)
    ensures IsSubsequence(a, b + [x])
  {
    if a != [] {
      assert (b + [x])[1..] == b[1..] + [x];
      if IsSubsequence(a, b[1..]) {
        SubsequenceExtend(a, b[1..], x);
      } else {
        SubsequenceExtend(a[1..], b[1..], x);
      }
    }
  }

  /** Appending the same element to both keeps a subsequence. */
  lemma {:induction false} SubsequenceSnoc<T>(a: seq<T>, b: seq<T>, x: T)
    requires IsSubsequence(a, b)
    ensures IsSubsequence(a + [x], b + [x])
  {
    if a == [] {
      assert a + [x] == [x];
      SingletonSubsequence(b, x);
    } else {
      assert (b + [x])[1..] == b[1..] + [x];
      assert (a + [x])[1..] == a[1..] + [x];
      if IsSubsequence(a, b[1..]) {
        SubsequenceSnoc(a, b[1..], x);
      } else {
        SubsequenceSnoc(a[1..], b[1..], x);
      }
    }
  }

  lemma {:induction false} SingletonSubsequence<T>(b: seq<T>, x: T)
    ensures IsSubsequence([x], b + [x])
  {
    if b == [] {
      assert [x][1..] == [];
    } else {
      assert (b + [x])[1..] == b[1..] + [x];
      SingletonSubsequence(b[1..], x);
    }
  }
}

=== FILE: text.dfy ===
/** Whitespace trimming, parametrised by the language's notion of whitespace:
    JavaScript's `String.prototype.trim` and Python's `str.strip()` remove different sets of characters. */
module Text {

  /** Every character of s is whitespace. */
  ghost predicate AllWhitespace(s: string, ws: char -> bool) {
    forall i :: 0 <= i < |s| ==> ws(s[i])
  }

  /** s neither starts nor ends with whitespace. */
  ghost predicate IsTrimmed(s: string, ws: char -> bool) {
    s == [] || (!ws(s[0]) && !ws(s[|s| - 1]))
  }

  /** Drops leading whitespace; what is dropped is all whitespace and what is left does not start with it. */
  function TrimStart(s: string, ws: char -> bool): (r: string)
    ensures |r| <= |s| && r == s[|s| - |r|..]
    ensures AllWhitespace(s[..|s| - |r|], ws)
    ensures r == [] || !ws(r[0])
  {
    if s != [] && ws(s[0]) then TrimStart(s[1..], ws) else s
  }

  /** Drops trailing whitespace; what is dropped is all whitespace and what is left does not end with it. */
  function TrimEnd(s: string, ws: char -> bool): (r: string)
    ensures |r| <= |s| && r == s[..|r|]
    ensures AllWhitespace(s[|r|..], ws)
    ensures r == [] || !ws(r[|r| - 1])
  {
    if s != [] && ws(s[|s| - 1]) then TrimEnd(s[..|s| - 1], ws) else s
  }

  /** Drops leading and trailing whitespace; the result neither starts nor ends with whitespace. */
  function Trim(s: string, ws: char -> bool): (r: string)
    ensures |r| <= |s| && IsTrimmed(r, ws)
  {
    TrimEnd(TrimStart(s, ws), ws)
  }

  /** Trim keeps the infix s[i..j] whose surroundings are whitespace. */
  lemma TrimIsInfix(s: string, ws: char -> bool) returns (i: nat, j: nat)
    ensures i <= j <= |s| && Trim(s, ws) == s[i..j]
    ensures AllWhitespace(s[..i], ws) && AllWhitespace(s[j..], ws)
  {
    var t := TrimStart(s, ws);
    var r := TrimEnd(t, ws);
    i, j := |s| - |t|, |s| - |t| + |r|;
    assert t == s[i..];
    assert r == s[i..j];
    assert s[j..] == t[|r|..];
  }

  /** Trim yields the empty string exactly when s is all whitespace. */
  lemma TrimEmpty(s: string, ws: char -> bool)
    ensures Trim(s, ws) == [] <==> AllWhitespace(s, ws)
  {
    var t := TrimStart(s, ws);
    if t == [] {
      assert s[..|s|] == s;
    } else {
      assert t[0] == s[|s| - |t|];
      assert !AllWhitespace(s, ws);
      assert !AllWhitespace(t, ws);
      assert t[..|t|] == t;
    }
  }

  /** Trimming an already trimmed string changes nothing. */
  lemma TrimTrimmed(s: string, ws: char -> bool)
    requires IsTrimmed(s, ws)
    ensures Trim(s, ws) == s
  {
    if s != [] {
      assert TrimStart(s, ws) == s;
      assert TrimEnd(s, ws) == s;
    }
  }

  /** Trim is idempotent. */
  lemma TrimIdempotent(s: string, ws: char -> bool)
    ensures Trim(Trim(s, ws), ws) == Trim(s, ws)
  {
    TrimTrimmed(Trim(s, ws), ws);
  }
}

=== FILE: transcript.dfy ===
/** The rows of the `Chat_Session` and `Chat_Message` tables and the queries the paper-chat
    handler runs over them (server.js, `POST /api/chat/:paperId`), as values. */
module Transcript {
  import opened Wrappers
  import Seqs

  /** A generated identifier (a version 4 UUID in the source); only its freshness matters. */
  type Uuid = nat
  type UserId = string

  /** A row of the `paper` table as the handler reads it. */
  datatype Paper = Paper(code: string, title: string, description: string)

  datatype SessionRow = SessionRow(
    id: Uuid, userId: Option<UserId>, paperCode: Option<string>,
    createdAt: nat, updatedAt: nat, starred: bool)

  /** `role` and `content` are whatever the column holds; `content` may be NULL. */
  datatype MessageRow = MessageRow(id: Uuid, sessionId: Uuid, role: string, content: Option<string>, createdAt: nat)

  /** One entry of the conversation sent to the language model. */
  datatype Turn = Turn(role: string, content: string)

  /** `LIMIT 8` of the history query. */
  const HistoryLimit: nat := 8

  /** SQL `=` on nullable values: NULL equals nothing, not even NULL. */
  predicate SqlEq<T(==)>(a: Option<T>, b: Option<T>) {
    a.Some? && b.Some? && a.value == b.value
  }

  /** `WHERE user_id = $1 AND paper_code = $2`. */
  predicate MatchesPair(s: SessionRow, user: Option<UserId>, paper: string) {
    SqlEq(s.userId, user) && SqlEq(s.paperCode, Some(paper))
  }

  /** `... ORDER BY created_at DESC LIMIT 1`, over a table kept in creation order: the index of the
      last matching row, or None when no row matches. An anonymous caller (user NULL) never matches. */
  function LatestMatch(rows: seq<SessionRow>, user: Option<UserId>, paper: string): (r: Option<nat>)
    ensures user.None? ==> r.None?
    ensures r.Some? ==> r.value < |rows| && MatchesPair(rows[r.value], user, paper) &&
                        forall j :: r.value < j < |rows| ==> !MatchesPair(rows[j], user, paper)
    ensures r.None? ==> forall j :: 0 <= j < |rows| ==> !MatchesPair(rows[j], user, paper)
  {
    if rows == [] then None
    else if MatchesPair(rows[|rows| - 1], user, paper) then Some(|rows| - 1)
    else LatestMatch(rows[..|rows| - 1], user, paper)
  }

  /** Rows were inserted in strictly increasing `created_at` order. */
  ghost predicate SessionsInCreationOrder(rows: seq<SessionRow>) {
    forall i, j :: 0 <= i < j < |rows| ==> rows[i].createdAt < rows[j].createdAt
  }

  ghost predicate MessagesInCreationOrder(rows: seq<MessageRow>) {
    forall i, j :: 0 <= i < j < |rows| ==> rows[i].createdAt < rows[j].createdAt
  }

  /** `session_id` is the table's key. */
  ghost predicate UniqueSessionIds(rows: seq<SessionRow>) {
    forall i, j :: 0 <= i < j < |rows| ==> rows[i].id != rows[j].id
  }

  /** The row LatestMatch picks is the most recently created of all matching rows,
      which is what `ORDER BY created_at DESC LIMIT 1` returns. */
  lemma LatestMatchIsNewest(rows: seq<SessionRow>, user: Option<UserId>, paper: string, j: nat)
    requires SessionsInCreationOrder(rows)
    requires j < |rows| && MatchesPair(rows[j], user, paper)
    ensures LatestMatch(rows, user, paper).Some?
    ensures rows[j].createdAt <= rows[LatestMatch(rows, user, paper).value].createdAt
  {
  }

  /** `UPDATE Chat_Session SET updated_at = t WHERE session_id = sid`. */
  function Touch(rows: seq<SessionRow>, sid: Uuid, t: nat): (r: seq<SessionRow>)
    ensures |r| == |rows|
  {
    seq(|rows|, i requires 0 <= i < |rows| =>
      if rows[i].id == sid then rows[i].(updatedAt := t) else rows[i])
  }

  /** With unique ids, the update changes the `updated_at` of that one row and nothing else. */
  lemma TouchChangesOnlyTarget(rows: seq<SessionRow>, k: nat, t: nat)
    requires UniqueSessionIds(rows) && k < |rows|
    ensures Touch(rows, rows[k].id, t) == rows[k := rows[k].(updatedAt := t)]
  {
    var l, r := Touch(rows, rows[k].id, t), rows[k := rows[k].(updatedAt := t)];
    forall i | 0 <= i < |rows| ensures l[i] == r[i] {
      if i != k {
        assert rows[i].id != rows[k].id;
      }
    }
  }

  /** `WHERE session_id = sid`, in table order. */
  function SessionRows(msgs: seq<MessageRow>, sid: Uuid): (r: seq<MessageRow>)
    ensures |r| <= |msgs|
  {
    if msgs == [] then []
    else (if msgs[0].sessionId == sid then [msgs[0]] else []) + SessionRows(msgs[1..], sid)
  }

  /** The session's rows are rows of the table that carry its id. */
  lemma {:induction false} SessionRowsMembership(msgs: seq<MessageRow>, sid: Uuid)
    ensures forall m :: m in SessionRows(msgs, sid) <==> m in msgs && m.sessionId == sid
  {
    if msgs != [] {
      SessionRowsMembership(msgs[1..], sid);
      assert msgs == [msgs[0]] + msgs[1..];
    }
  }

  /** A session no row refers to has no rows. */
  lemma {:induction false} SessionRowsNone(msgs: seq<MessageRow>, sid: Uuid)
    requires forall i :: 0 <= i < |msgs| ==> msgs[i].sessionId != sid
    ensures SessionRows(msgs, sid) == []
  {
    if msgs != [] {
      SessionRowsNone(msgs[1..], sid);
    }
  }

  /** `SELECT role, content FROM Chat_Message WHERE session_id = sid ORDER BY created_at DESC LIMIT 8`
      over a table kept in creation order: the session's rows, newest first, at most eight. */
  function HistoryQuery(msgs: seq<MessageRow>, sid: Uuid): seq<MessageRow> {
    var rows := Seqs.Reverse(SessionRows(msgs, sid));
    if |rows| <= HistoryLimit then rows else rows[..HistoryLimit]
  }

  /** The history query returns the newest rows of the session, in strictly decreasing `created_at`
      order, and every session row it leaves out is older than all it returns. */
  lemma HistoryQueryNewestFirst(msgs: seq<MessageRow>, sid: Uuid)
    requires MessagesInCreationOrder(msgs)
    ensures var h, all := HistoryQuery(msgs, sid), SessionRows(msgs, sid);
      && |h| == (if |all| <= HistoryLimit then |all| else HistoryLimit)
      && (forall i :: 0 <= i < |h| ==> h[i].sessionId == sid)
      && (forall i, j :: 0 <= i < j < |h| ==> h[i].createdAt > h[j].createdAt)
      && (forall k :: 0 <= k < |all| && all[k] !in h ==> forall i :: 0 <= i < |h| ==> all[k].createdAt < h[i].createdAt)
  {
    var all := SessionRows(msgs, sid);
    FilterKeepsOrder(msgs, sid);
    var h := HistoryQuery(msgs, sid);
    var n := |h|;
    var rev := Seqs.Reverse(all);
    Seqs.ReverseAt(all);
    assert h == rev[..n];
    forall i | 0 <= i < n ensures h[i] == all[|all| - 1 - i] {
      assert h[i] == rev[i];
    }
    SessionRowsMembership(msgs, sid);
    forall i | 0 <= i < n ensures h[i].sessionId == sid {
      assert h[i] == all[|all| - 1 - i] && all[|all| - 1 - i] in all;
    }
    forall i, j | 0 <= i < j < n ensures h[i].createdAt > h[j].createdAt {
      assert h[i] == all[|all| - 1 - i] && h[j] == all[|all| - 1 - j];
    }
    forall k | 0 <= k < |all| && all[k] !in h ensures forall i :: 0 <= i < n ==> all[k].createdAt < h[i].createdAt {
      assert rev[|all| - 1 - k] == all[k];
      OutsidePrefix(rev, n, |all| - 1 - k);
      forall i | 0 <= i < n ensures all[k].createdAt < h[i].createdAt {
        assert h[i] == all[|all| - 1 - i];
      }
    }
  }

  lemma OutsidePrefix<T>(s: seq<T>, n: nat, k: nat)
    requires n <= |s| && k < |s| && s[k] !in s[..n]
    ensures k >= n
  {
  }

  /** Selecting the rows of one session keeps the creation order. */
  lemma {:induction false} FilterKeepsOrder(msgs: seq<MessageRow>, sid: Uuid)
    requires MessagesInCreationOrder(msgs)
    ensures MessagesInCreationOrder(SessionRows(msgs, sid))
  {
    if msgs != [] {
      FilterKeepsOrder(msgs[1..], sid);
      var rest := SessionRows(msgs[1..], sid);
      SessionRowsMembership(msgs[1..], sid);
      assert forall m :: m in rest ==> m in msgs[1..];
      assert forall m :: m in rest ==> msgs[0].createdAt < m.createdAt;
    }
  }

  /** The handler's filter: a row reaches the model only when its content is truthy
      (not NULL, not empty) and its role is 'user' or 'assistant'. */
  predicate Kept(m: MessageRow) {
    m.content.Some? && m.content.value != "" && (m.role == "user" || m.role == "assistant")
  }

  /** `.map(r => ({ role: r.role, content: r.content }))` over kept rows. */
  function Turns(rows: seq<MessageRow>): (r: seq<Turn>)
    ensures |r| == |rows|
  {
    if rows == [] then [] else [Turn(rows[0].role, rows[0].content.GetOr(""))] + Turns(rows[1..])
  }

  /** Turn i carries the role and content of row i. */
  lemma {:induction false} TurnsAt(rows: seq<MessageRow>, i: nat)
    requires i < |rows|
    ensures Turns(rows)[i] == Turn(rows[i].role, rows[i].content.GetOr(""))
  {
    if i > 0 {
      TurnsAt(rows[1..], i - 1);
    }
  }

  /** The conversation sent to the model: the system prompt, then the history rows filtered,
      reversed and mapped (server.js, `recent` and `messages`). */
  function ContextWindow(prompt: string, history: seq<MessageRow>): seq<Turn> {
    [Turn("system", prompt)] + Turns(Seqs.Reverse(Seqs.Filter(history, Kept)))
  }

  /** The context is the system prompt followed by at most eight user/assistant turns with
      non-empty content. */
  lemma ContextWindowShape(prompt: string, msgs: seq<MessageRow>, sid: Uuid)
    ensures var c := ContextWindow(prompt, HistoryQuery(msgs, sid));
      && 1 <= |c| <= 1 + HistoryLimit
      && c[0] == Turn("system", prompt)
      && forall i :: 1 <= i < |c| ==> (c[i].role == "user" || c[i].role == "assistant") && c[i].content != ""
  {
    var h := HistoryQuery(msgs, sid);
    var kept := Seqs.Filter(h, Kept);
    var rev := Seqs.Reverse(kept);
    var c := ContextWindow(prompt, h);
    Seqs.FilterAll(h, Kept);
    Seqs.ReverseAt(kept);
    forall i | 1 <= i < |c| ensures (c[i].role == "user" || c[i].role == "assistant") && c[i].content != "" {
      TurnsAt(rev, i - 1);
      assert c[i] == Turns(rev)[i - 1];
      assert Kept(rev[i - 1]);
    }
  }

  /** The session's rows among the eight most recent, oldest first. */
  function RecentRows(msgs: seq<MessageRow>, sid: Uuid): (r: seq<MessageRow>)
    ensures |r| <= HistoryLimit
  {
    var all := SessionRows(msgs, sid);
    if |all| <= HistoryLimit then all else all[|all| - HistoryLimit..]
  }

  /** The context replays, oldest first, the kept rows among the session's eight most recent rows. */
  lemma ContextIsChronologicalTail(prompt: string, msgs: seq<MessageRow>, sid: Uuid)
    ensures ContextWindow(prompt, HistoryQuery(msgs, sid)) ==
              [Turn("system", prompt)] + Turns(Seqs.Filter(RecentRows(msgs, sid), Kept))
  {
    var all := SessionRows(msgs, sid);
    var n := if |all| <= HistoryLimit then |all| else HistoryLimit;
    var h := HistoryQuery(msgs, sid);
    var rev := Seqs.Reverse(all);
    assert h == rev[..n] by {
      if |rev| <= HistoryLimit {
        assert rev[..n] == rev;
      }
    }
    Seqs.FilterReverse(h, Kept);
    Seqs.ReverseTakeReverse(all, n);
    assert all[|all| - n..] == RecentRows(msgs, sid);
    var kept := Seqs.Filter(RecentRows(msgs, sid), Kept);
    assert Seqs.Reverse(Seqs.Filter(h, Kept)) == kept;
    assert ContextWindow(prompt, h) == [Turn("system", prompt)] + Turns(Seqs.Reverse(Seqs.Filter(h, Kept)));
  }

  /** The rows the context replays are in ascending `created_at` order. */
  lemma ContextRowsAscending(msgs: seq<MessageRow>, sid: Uuid)
    requires MessagesInCreationOrder(msgs)
    ensures MessagesInCreationOrder(Seqs.Filter(RecentRows(msgs, sid), Kept))
  {
    FilterKeepsOrder(msgs, sid);
    var all := SessionRows(msgs, sid);
    if |all| > HistoryLimit {
      SuffixKeepsOrder(all, |all| - HistoryLimit);
    }
    KeptKeepsOrder(RecentRows(msgs, sid));
  }

  lemma SuffixKeepsOrder(rows: seq<MessageRow>, k: nat)
    requires k <= |rows| && MessagesInCreationOrder(rows)
    ensures MessagesInCreationOrder(rows[k..])
  {
    forall i, j | 0 <= i < j < |rows[k..]| ensures rows[k..][i].createdAt < rows[k..][j].createdAt {
      assert rows[k..][i] == rows[k + i] && rows[k..][j] == rows[k + j];
    }
  }

  lemma {:induction false} KeptKeepsOrder(rows: seq<MessageRow>)
    requires MessagesInCreationOrder(rows)
    ensures MessagesInCreationOrder(Seqs.Filter(rows, Kept))
  {
    if rows != [] {
      SuffixKeepsOrder(rows, 1);
      KeptKeepsOrder(rows[1..]);
      var rest := Seqs.Filter(rows[1..], Kept);
      Seqs.FilterMembership(rows[1..], Kept);
      assert forall m :: m in rest ==> m in rows[1..];
      assert forall m :: m in rest ==> rows[0].createdAt < m.createdAt;
    }
  }

  /** A row just appended to a session, with truthy content and role 'user', is the last turn of the
      context built from that session: the user's new message always reaches the model. */
  lemma NewestUserTurnIsLast(prompt: string, msgs: seq<MessageRow>, row: MessageRow)
    requires row.role == "user" && row.content.Some? && row.content.value != ""
    ensures var c := ContextWindow(prompt, HistoryQuery(msgs + [row], row.sessionId));
      |c| >= 2 && c[|c| - 1] == Turn("user", row.content.value)
  {
    var sid := row.sessionId;
    var all := SessionRows(msgs + [row], sid);
    SessionRowsAppend(msgs, row);
    ContextIsChronologicalTail(prompt, msgs + [row], sid);
    var tail := RecentRows(msgs + [row], sid);
    assert tail == tail[..|tail| - 1] + [row];
    var ts := LastKeptTurn(tail[..|tail| - 1], row);
    assert ContextWindow(prompt, HistoryQuery(msgs + [row], sid)) == [Turn("system", prompt)] + ts;
  }

  lemma LastKeptTurn(front: seq<MessageRow>, row: MessageRow) returns (ts: seq<Turn>)
    requires Kept(row)
    ensures ts == Turns(Seqs.Filter(front + [row], Kept))
    ensures |ts| >= 1 && ts[|ts| - 1] == Turn(row.role, row.content.value)
  {
    Seqs.FilterAppend(front, [row], Kept);
    assert Seqs.Filter([row], Kept) == [row];
    var kept := Seqs.Filter(front + [row], Kept);
    assert kept[|kept| - 1] == row;
    ts := Turns(kept);
    TurnsAt(kept, |kept| - 1);
  }

  /** Appending a row to the table appends it to its own session's rows. */
  lemma {:induction false} SessionRowsAppend(msgs: seq<MessageRow>, row: MessageRow)
    ensures SessionRows(msgs + [row], row.sessionId) == SessionRows(msgs, row.sessionId) + [row]
  {
    if msgs == [] {
      assert [] + [row] == [row];
    } else {
      assert (msgs + [row])[1..] == msgs[1..] + [row];
      SessionRowsAppend(msgs[1..], row);
    }
  }

  /** Appending a row of another session leaves this session's rows as they were. */
  lemma {:induction false} SessionRowsAppendOther(msgs: seq<MessageRow>, row: MessageRow, sid: Uuid)
    requires row.sessionId != sid
    ensures SessionRows(msgs + [row], sid) == SessionRows(msgs, sid)
  {
    if msgs == [] {
      assert [] + [row] == [row];
    } else {
      assert (msgs + [row])[1..] == msgs[1..] + [row];
      SessionRowsAppendOther(msgs[1..], row, sid);
    }
  }

  /** The fixed text of the system prompt around the paper's fields. */
  const PromptLead: string := "You are "
  const PromptSchool: string := "), a first-year university paper from the University of Otago. Description: "
  const PromptRole: string :=
    ".\n    You are on a dating app, trying to convince a prospective student to take you as a paper.\n"
    + "    You are playful and flirty, but also informative about your course content and structure.\n"
    + "    Answer the user's questions in short, engaging responses."

  /** The system prompt, built from the paper's title, code and description. */
  function Prompt(p: Paper): string {
    PromptLead + p.title + " (" + p.code + PromptSchool + p.description + PromptRole
  }
}

=== FILE: wrappers.dfy ===
/** Nullable values: `None` stands for JavaScript's `null`/`undefined` and SQL's NULL. */
module Wrappers {

  datatype Option<+T> = None | Some(value: T) {

    /** Returns the value held in Some, or `default` for None. */
    function GetOr(default: T): T {
      match this
      case Some(v) => v
      case None => default
    }
  }
}
